=== FILE: README.md ===
# Channel-poster bot: job persistence, calendar keyboard and relay logic in Dafny

This project models the logic core of a Telegram bot that relays messages,
offers an inline calendar and option keyboards, and keeps its job queue
across restarts. Every operation is a pure function or a method with no
side effects. The clock, the pickle file, the Bot API answers and the
decorated function's result are all explicit inputs.

- `job_persistence.dfy` (module `JobPersistence`) models `save_jobs` and
  `load_jobs` of `loadjobs.py`, plus the first-run handling of `main`.
  - A `threading.Event` is an index into `Events`, a sequence of booleans
    ("set or not") that stands for the process's Event objects.
  - A job's `_remove` and `_enabled` attributes are a `Flag`. It is either
    `Event(id)` (live) or `Plain(b)` (while being pickled).
  - The jobs file is a `seq<Record>`.
  - Each `jq._put(job, delay)` call is a `Put` value in a returned list.
- `text.dfy` (module `Text`) models Python's `str.split`, `str.join`, `str(int)`
  and `int(str)`. `callback_data.dfy` (module `CallbackData`) is the `;`
  codec for callback data.
- `gregorian.dfy` (module `Gregorian`) has the proleptic Gregorian calendar of
  Python's `datetime`: validity, ordinals, weekdays, and day arithmetic with
  `OverflowError` outside years 1..9999.
- `markup.dfy` (module `Markup`) has buttons, keyboards and the Bot API call
  each callback handler makes. `calendar_keyboard.dfy` (module
  `CalendarKeyboard`) is `create_calendar`. `options_keyboard.dfy` (module
  `OptionsKeyboard`) covers `create_options_keyboard` and
  `process_option_selection`. `calendar_selection.dfy` (module
  `CalendarSelection`) is `process_calendar_selection`. `main.py:204-301` is
  a verbatim copy of these functions from `cal.py`, so the same model covers both.
- `memo_cache.dfy` (module `MemoCache`) models the `MWT` time-to-live memoiser:
  - the cache key built from positional arguments and sorted keyword arguments;
  - lookup with expiry;
  - the `collect` sweep;
  - the class-wide `_caches`/`_timeouts` tables, with dict objects tracked by
    identity.
- `admin_gate.dfy` (module `AdminGate`) is the `restricted` decorator over the
  cached `get_admin_ids`.
- `relay.dfy` (module `Relay`) is the choice of source message, caption and
  reply kind in `process_message`.
- `common.dfy` (module `Common`) has `Option` and `Result`.

Python exceptions become `Failure` values. Here is each error and what the
model returns:

| Python error | Model result |
|---|---|
| Wrong number of `;`-fields when unpacking | `BadFieldCount` |
| `int()` on non-decimal text | `BadInteger` |
| `datetime(...)` arguments within the C `int` range that name no date (`ValueError`) | `BadDate` |
| A `datetime(...)` argument outside the C `int` range (`OverflowError`) | `DateOverflow` |
| `timedelta` arithmetic past year 1 or 9999 (`OverflowError`) | `DateOverflow` |
| Missing jobs file | `FileNotFound` |
| `None` source message in `process_message` | `NoSourceMessage` |

Two consequences of the code worth knowing:

- **"Add 31 days" in month navigation.** Adding 31 days to the first of a
  month always lands in the following month, on day `32 - length`
  (`Gregorian.FirstPlus31`). It overflows only from December 9999.
- **What the job file stores.** The job file holds each job object as it was
  pickled. `JobBody` carries the job's other attributes, including the
  interval, through unchanged. The model makes no claim about how the
  library's queue later dispatches them.

## Model

| member | source | states |
|---|---|---|
| `JobPersistence.Snapshot` | loadjobs.py:39-42 | With no queue (`jq` falsy), the list that gets saved is empty. |
| `JobPersistence.SaveJobs` | loadjobs.py:38-62 | The file holds exactly one record per heap entry, in heap order. Each record keeps the absolute time, has no queue reference, replaces each flag with the boolean its Event held, and leaves the other job attributes as they were. Afterwards the live list equals the list before the save, attribute for attribute. A falsy `jq` writes an empty file. |
| `JobPersistence.Reinsert` | loadjobs.py:14-35 | Each record gives exactly one `_put`, in file order. The delay is `next_t - now`, with no lower bound, so an overdue job gets a negative delay. The job gets two new Event objects: `_enabled` first, then `_remove`. Each Event is set exactly when the saved value is truthy. The other attributes are unchanged, and the process's existing Events are untouched. |
| `JobPersistence.LoadJobs` | loadjobs.py:10-35 | A missing file, and only a missing file, fails with `FileNotFound`. Otherwise there is one `_put` per record. Every loaded flag is a new Event object, and the existing Events are unchanged. |
| `JobPersistence.Startup` | loadjobs.py:77-82 | First run: with no file, nothing is inserted and no Event is created. With a file, there is one insertion per record. |
| `JobPersistence.LoadedFlagsFresh` | loadjobs.py:21-31 | No two loaded flags share an Event object, and none of them existed before the load. |
| `JobPersistence.SaveLoadRoundTrip` | loadjobs.py:10-62 | Save followed by load, at any later `now`, gives each job back in order with both flag values and all other attributes. It is re-inserted so that `now + delay == next_t`. |
| `JobPersistence.EmptySaveLoadsNothing` | loadjobs.py:38-45 | Saving with no queue writes zero records, and loading that file inserts nothing. |
| `Text.SplitJoin` | cal.py:7-12 | `";".join(fields).split(";") == fields` when no field contains `;`. |
| `Text.JoinSplit` | cal.py:11-12 | `";".join(s.split(";")) == s`: splitting loses nothing. |
| `Text.ParseIntToString` | cal.py:81 | `int(str(i)) == i` for every integer. |
| `CallbackData.CallbackRoundTrip` | cal.py:7-12 | `separate_callback_data(create_callback_data(a, y, m, d)) == [a, str(y), str(m), str(d)]` whenever `a` has no `;`. |
| `CallbackData.CallbackInjective` | cal.py:7-8 | Two encodings are equal if and only if their action, year, month and day are all equal, for `;`-free actions. |
| `Gregorian.NextDayOrdinal` | cal.py:97 | Stepping one day forward matches Python's ordinal arithmetic. It overflows exactly at 9999-12-31. |
| `Gregorian.PrevDayOrdinal` | cal.py:91 | Stepping one day back matches Python's ordinal arithmetic. It overflows exactly at 0001-01-01. |
| `Gregorian.AddDaysOrdinal` | cal.py:97 | Adding `n` days adds `n` to the ordinal, as `date + timedelta(days=n)` does. It overflows exactly when the ordinal would pass that of 9999-12-31. |
| `Gregorian.OrdinalBounded` | cal.py:97 | No representable date has an ordinal beyond that of 9999-12-31, the last day `datetime` allows. |
| `Gregorian.FirstPlus31` | cal.py:97 | The first of a month plus 31 days falls in the following month, on day `32 - length`. It overflows exactly from December 9999. |
| `Gregorian.FirstMinusOne` | cal.py:91 | The first of a month minus one day is the last day of the preceding month. It overflows exactly from January of year 1. |
| `CalendarKeyboard.MonthCells` | cal.py:30-38 | The month's cells form whole weeks: the fewest that hold the leading blanks and every day. |
| `CalendarKeyboard.CalendarShape` | cal.py:21-42 | The rows are: one title button, seven weekday buttons, one seven-cell row per week, and three navigation buttons. |
| `CalendarKeyboard.CalendarWeekCells` | cal.py:30-38 | Weeks start on Monday. Cell `c` of week `w` holds day `7w + c - weekday(1st) + 1` with data `DAY;y;m;d` when that is a day of the month. Otherwise it is a `" "` cell with data `IGNORE;y;m;0`. |
| `CalendarKeyboard.CalendarNavigationRow` | cal.py:39-42 | The arrows encode `PREV-MONTH` and `NEXT-MONTH` with the loop's leftover `day`, which is the month's length if the month ends on a Sunday and 0 otherwise. The middle button is ignored. |
| `CalendarKeyboard.LastCell` | cal.py:30-42 | The last cell of `monthcalendar` is the month's last day if and only if the month ends on a Sunday. Otherwise it is 0. |
| `CalendarKeyboard.DayAppearsOnce` | cal.py:30-38 | A button carries day `d`'s data if and only if it sits at row-major position `d - 1 + weekday(1st)`. So each day appears exactly once, in ascending order. |
| `OptionsKeyboard.CreateOptionsKeyboard` | cal.py:46-52 | There is one row per option, in order, with data `CHOSEN;i`. A final `CANCEL;0` row is added if and only if a cancel message is given. |
| `OptionsKeyboard.ProcessOptionSelection` | cal.py:55-74 | The data must have exactly two fields. `CHOSEN;i` selects with value `int(i)`, and fails exactly when `i` does not parse. `CANCEL;x` gives `(False, 0)` with an edit, for any `x`. Any other action gives `(False, None)` with the "Something went wrong!" alert and never fails. |
| `OptionsKeyboard.OptionButtonsRoundTrip` | cal.py:46-74 | Pressing option button `i` yields `(True, i)`. Pressing the cancel button yields `(False, 0)`. |
| `CalendarSelection.ProcessCalendarSelection` | cal.py:77-104 | Any field count other than four fails. Whatever the action, a year or month that does not parse fails with `BadInteger`. One outside the C `int` range fails with `DateOverflow`. Any other pair that names no real month fails with `BadDate`. Otherwise the result is `Dispatch` on the action. It selects exactly when it returns a date, and then the action is `DAY` and the date is valid. |
| `CalendarSelection.Dispatch` | cal.py:82-103 | `IGNORE` gives `(False, None)` and answers the query. `DAY` succeeds exactly when the day parses and makes a valid date, and it is the only action that selects. Its failures are `BadInteger` for an unparsable day, `DateOverflow` for a day outside the C `int` range, and `BadDate` otherwise. The arrows either overflow or re-render without selecting. Any other action gives `(False, None)` with the "Something went wrong!" alert. |
| `CalendarSelection.EncodedSelection` | cal.py:80-81 | Data built for a real month decodes back to its action, year and month. The fourth field is the rendered day. |
| `CalendarSelection.DaySelected` | cal.py:84-89 | `DAY;y;m;d` for a real date returns `(True, date(y, m, d))` and edits the message. |
| `CalendarSelection.IgnoreSelectsNothing` | cal.py:82-83 | `IGNORE` data for a real month returns `(False, None)` and only answers the query. |
| `CalendarSelection.PrevMonthNavigation` | cal.py:90-95 | `PREV-MONTH` re-renders `(y, m-1)`, or `(y-1, 12)` from January. It overflows from January of year 1, and the day field is never read. |
| `CalendarSelection.NextMonthNavigation` | cal.py:96-101 | `NEXT-MONTH` re-renders `(y, m+1)`, or `(y+1, 1)` from December. It overflows from December 9999, and the day field is never read. |
| `CalendarSelection.CalendarGridButtons` | cal.py:77-89 | Pressing a day cell of a rendered calendar selects that day. Pressing the title, weekday or blank cells selects nothing. |
| `CalendarSelection.LeftArrowButton` | cal.py:90-95 | Pressing the left arrow of a rendered calendar re-renders the preceding month. It overflows from January of year 1. |
| `CalendarSelection.RefreshButton` | cal.py:82-83 | Pressing the refresh button of a rendered calendar selects nothing. |
| `CalendarSelection.RightArrowButton` | cal.py:96-101 | Pressing the right arrow of a rendered calendar re-renders the following month. It overflows from December 9999. |
| `MemoCache.SortByName` | main.py:165 | `sorted(kwargs.items())` is a permutation of the items, in strictly increasing name order. |
| `MemoCache.SortedUnique` | main.py:165 | Two name-sorted lists with the same items are equal. |
| `MemoCache.MakeKey` | main.py:165-166 | The key keeps the positional arguments and holds the same keyword items. |
| `MemoCache.KeyIgnoresKwargOrder` | main.py:165-166 | Passing the same keyword arguments in a different order gives the same key. |
| `MemoCache.Lookup` | main.py:164-175 | The cached value is served without calling `f` exactly when the key is present and its age is at most the timeout. Otherwise `f` is called once and `(result, now)` is stored. |
| `MemoCache.Collect` | main.py:152-158 | An entry is kept if and only if its age is strictly below the timeout. No key is added, and kept entries are unchanged. |
| `MemoCache.MemoisedWithinTimeout` | main.py:167-175 | A freshly computed value is served again, without calling `f`, until `timeout` has passed. |
| `MemoCache.CollectAgreesWithLookup` | main.py:156-170 | Sweeping changes no lookup result except at the boundary. An entry aged exactly `timeout` is still served by lookup, but it has been dropped by `collect`. |
| `MemoCache.CollectIdempotent` | main.py:152-158 | A second sweep at the same time removes nothing more. |
| `MemoCache.Decorate` | main.py:160-162 | Decorating creates a new empty dict. That dict is recorded both in `_caches[f]` and in the wrapper. `_timeouts[f]` becomes the instance's timeout. The entries of other functions in both tables are unchanged. |
| `MemoCache.DecoratedWrapperOwnsDict` | main.py:160-162 | The decorated wrapper's dict and timeout are the ones recorded for `f`, and no other function's entry points at that dict. |
| `MemoCache.CallWrapped` | main.py:164-175 | A wrapper call looks up and updates only the wrapper's own dict. Every other dict and both class tables are unchanged. |
| `MemoCache.CollectAsWritten` | main.py:152-158 | As written, each sweep allocates new dicts. Earlier dicts are left as they were. |
| `MemoCache.CollectAsWrittenRebinds` | main.py:152-158 | As written, each swept function's `_caches[f]` is rebound to a dict created by the sweep. That dict holds exactly the entries of the old dict younger than `_timeouts[f]`. An unswept function keeps its entry. |
| `MemoCache.CollectInPlace` | main.py:152-158 | The corrected sweep updates each function's own dict and allocates nothing. |
| `MemoCache.CollectAsWrittenMissesWrapper` | main.py:152-175 | After `collect` as written, the wrapper's dict is unchanged, so nothing expired is evicted. `_caches` no longer points at that dict. |
| `MemoCache.StaleEntrySurvivesCollect` | main.py:152-175 | Concrete case: with timeout 60, a call at 0 and a sweep at 100, the expired entry is still in the wrapper's dict. |
| `MemoCache.CollectInPlaceReachesWrapper` | main.py:152-158 | Corrected: after the sweep, the wrapper's dict holds exactly the entries younger than the timeout. |
| `AdminGate.Gate` | main.py:192-195 | The handler runs if and only if the user id is in the admin list. Otherwise it returns nothing. |
| `AdminGate.Restricted` | main.py:186-197 | The admin list comes from the `get_admin_ids` cache. The handler runs if and only if the user is in that list. |
| `AdminGate.CachedAdminListDecides` | main.py:181-195 | For up to an hour, the cached admin list decides whatever the Bot API would now answer, and the cache is unchanged. |
| `AdminGate.ExpiredAdminListRefetched` | main.py:181-195 | Once the entry is missing or more than an hour old, the freshly fetched list decides and is stored. |
| `Relay.ProcessMessage` | main.py:45-142 | The call fails exactly when the chosen source message is `None`. Otherwise the reply is made to that source. |
| `Relay.SourceChoice` | main.py:50-57 | An edited message always wins. Otherwise the replied-to message is used exactly when the caption is removed or replaced, and the message itself otherwise. |
| `Relay.CaptionChoice` | main.py:59-62 | A voice, photo, document, audio or video reply carries the custom caption if one is given. Otherwise it carries the original caption's HTML when that caption is non-empty and not being removed, and no caption else. No other reply kind carries a caption. |
| `Relay.ReplyFollowsPriority` | main.py:64-142 | The reply answers the first kind the message has, in this order: text, voice, photo, sticker, document, audio, video, contact, venue, location, video note, game. Every earlier kind is absent. With none present, the reply is the unsupported notice. |
| `Relay.PhotoUsesLastSize` | main.py:72-74 | A photo is relayed by its last size, `photo[-1]`. |

## Findings

| source | as written | input that shows it | evidently intended | confidence | as-written member | corrected member |
|---|---|---|---|---|---|---|
| main.py:152-175 | `collect` puts the kept entries in a new dict and rebinds `_caches[func]` to it. The wrapper keeps reading `self.cache`, the dict created at decoration, so nothing is evicted from the dict that lookups use. Later sweeps only reach the detached copy. | `MWT(timeout=60)(f)`, a call at time 0, then `collect()` at time 100. The 100-second-old entry is still in the wrapper's dict. | `collect` evicts expired entries from the dict the wrapper reads. | high; not executed. `collect` has no caller in main.py, so the defect is latent. | `MemoCache.CollectAsWrittenMissesWrapper` | `MemoCache.CollectInPlaceReachesWrapper` |

## Left out

- Telegram Bot API calls (`reply_*`, `edit_message_text`,
  `answer_callback_query`, `leave_chat`, `send_message`) are transport side
  effects. The model returns which call is made and its arguments. It does not
  model the message text or the chat and message ids that are passed through.
- Side effects that happen before an exception are not modelled. For example,
  the `DAY` branch edits the message before `datetime(y, m, d)` raises for an
  invalid day.
- The pickle byte format, `open`, and corrupt or truncated records are left out.
  The file is a sequence of well-formed records. `UnpicklingError` and partial
  writes are not modelled.
- The library's `JobQueue` is outside the shown code. A loaded job reaches
  `_put` with `_job_queue = None`, and what `_put` does with it is not
  modelled: `_put` is an abstract insertion. Dispatch, cancellation,
  recurrence, `run_repeating` and the periodic `save_jobs_job` are left out.
  The `main` functions of both files are wiring only.
- `JobPersistence.SaveJobs` assumes every `pickle.dump` succeeds. There is no
  `try`/`finally` around loadjobs.py:56-62. So a dump that raises (for example
  on an unpicklable callback or context) leaves that live job with
  `_job_queue = None` and plain booleans in place of its Events, and leaves a
  partly written file. The model does not cover that path.
- `JobPersistence.SaveJobs` assumes a quiescent queue: nothing else touches the
  queue or its jobs while the save runs. The source gives no such guarantee.
  loadjobs.py:40 reads the heap list `jq._queue.queue` without holding the
  queue's mutex. So a `run_once`/`_put` on another thread can `heappush` into
  that list while loadjobs.py:45-62 iterates it. Also, while loadjobs.py:52-54
  has swapped plain booleans in for `_enabled` and `_remove`, another thread
  setting `job.enabled` or calling `job.schedule_removal()` would fail with
  `AttributeError`, or would be undone when lines 60-62 restore the Events.
  Interleavings are not modelled.
- Python object aliasing (the same job object twice in the heap) is not
  modelled, because jobs are values.
- Timestamps are modelled as exact `real` numbers, not floating point.
- `Lookup`, `Collect` and `CollectAsWritten` use one `now`. The source reads
  the clock separately for each entry in `collect`, and again after `f`
  returns when it stores a result.
- `MemoCache` leaves out the `print` calls, `func.func_name`, and the
  `self.cache` overwrite when one `MWT` instance decorates two functions.
- Whether `get_admin_ids` ever hits depends on the identity of the `context`
  object, which the library creates. It is a parameter here. The chat id
  `sys.argv[2]` is a parameter too.
- `Text.ParseInt` does not model the 4300-digit limit on `int()` that current
  CPython releases enforce with `ValueError`. A year, month or day field that
  long is read here as a huge integer, so the model reports `DateOverflow`
  where such an interpreter raises `ValueError`. `Text.ParseIntToString`
  likewise holds there only for integers of at most 4300 digits.
- `Text.ParseInt` accepts only an optional sign followed by ASCII digits.
  Python's `int()` also accepts surrounding whitespace, `_` between digits and
  non-ASCII digits.
- The `datetime.now()` defaults of `create_calendar` are left out: year and
  month are always given.
- `calendar.month_name` is taken in the C locale (English names).
- `CalendarKeyboard.CreateCalendar` requires a month within years 1..9999,
  which every caller supplies. For other inputs Python's `calendar` module
  raises or remaps the year.
- The `reply_markup` built in `process_message` is never passed to a reply,
  so it is not modelled. The HTML renderings `text_html` and `caption_html`
  are opaque strings.
- These functions are not modelled: `start`, `before_processing`, `unknown`,
  `echo`'s body, `calendar_handler`, `inline_handler` (which uses `strftime`),
  `inline` (a TinyDB lookup through JSON), `error`, the `run_async` concurrency,
  `process_engine.py` (a near-copy of `process_message` that cannot run) and
  `setup.py`. They are glue, I/O or library calls.

=== FILE: admin_gate.dfy ===
/** The `restricted` decorator of main.py: a handler runs only for a user in
    the chat's administrator list, which `get_admin_ids` fetches through an
    `MWT` cache with a one-hour timeout. */
module AdminGate {
  import opened MemoCache

  /** `@MWT(timeout=60 * 60)` on `get_admin_ids`. */
  const AdminTimeout: real := 3600.0

  /** What the wrapped handler call produces: nothing (`return` with no value)
      for a non-administrator, otherwise what the handler returned. */
  datatype Outcome<+R> = Denied | Ran(result: R)

  /** The cache key of `get_admin_ids(context, chat_id)`: two positional
      arguments, no keyword arguments. */
  function AdminKey(context: string, chatId: string): Key<string> {
    MakeKey([context, chatId], [])
  }

  /** The membership test of `restricted` once the admin list is known. */
  function Gate<R>(userId: int, admins: seq<int>, run: R): (o: Outcome<R>)
    ensures o.Ran? <==> userId in admins
    ensures o.Ran? ==> o.result == run
  {
    if userId !in admins then Denied else Ran(run)
  }

  /** `restricted(func)(update, context)`: the admin list comes from the cache
      dict of `get_admin_ids` (`fetched` is what the Bot API would answer on a
      miss), then the handler runs if and only if the user is in that list. */
  function Restricted<R>(store: Store<Key<string>, seq<int>>, context: string, chatId: string,
                         userId: int, now: real, fetched: seq<int>, run: R): (r: (Store<Key<string>, seq<int>>, Outcome<R>))
    ensures var c := Lookup(store, AdminKey(context, chatId), now, AdminTimeout, fetched);
      && r.0 == c.store
      && (r.1.Ran? <==> userId in c.value)
      && (r.1.Ran? ==> r.1.result == run)
  {
    var c := Lookup(store, AdminKey(context, chatId), now, AdminTimeout, fetched);
    (c.store, Gate(userId, c.value, run))
  }

  /** For up to an hour the cached list decides, whatever the chat's
      administrators are now: a removed administrator keeps access and a new
      one is refused until the entry expires. */
  lemma CachedAdminListDecides<R>(store: Store<Key<string>, seq<int>>, context: string, chatId: string,
                                   userId: int, now: real, fetched: seq<int>, run: R)
    requires AdminKey(context, chatId) in store
    requires now - store[AdminKey(context, chatId)].time <= AdminTimeout
    ensures var r := Restricted(store, context, chatId, userId, now, fetched, run);
      && r.0 == store
      && (r.1.Ran? <==> userId in store[AdminKey(context, chatId)].value)
  {
  }

  /** Once the entry is missing or older than an hour, the freshly fetched list
      decides and replaces the cached one. */
  lemma ExpiredAdminListRefetched<R>(store: Store<Key<string>, seq<int>>, context: string, chatId: string,
                                      userId: int, now: real, fetched: seq<int>, run: R)
    requires AdminKey(context, chatId) !in store || now - store[AdminKey(context, chatId)].time > AdminTimeout
    ensures var r := Restricted(store, context, chatId, userId, now, fetched, run);
      && r.0 == store[AdminKey(context, chatId) := Stamped(fetched, now)]
      && (r.1.Ran? <==> userId in fetched)
  {
  }
}

=== FILE: calendar_keyboard.dfy ===
/** The inline calendar of cal.py `create_calendar` (copied at main.py:212-240):
    a title row, a Monday-first weekday header, one row per week of
    `calendar.monthcalendar(year, month)`, and a navigation row. */
module CalendarKeyboard {
  import opened Text
  import opened Gregorian
  import opened CallbackData
  import opened Markup

  const WeekdayNames: seq<string> := ["Mon", "Tue", "Wed", "Thu", "Fri", "Sat", "Sun"]

  /** `calendar.month_name` in the C locale; index 0 is the empty string. */
  const MonthNames: seq<string> := ["", "January", "February", "March", "April", "May", "June",
    "July", "August", "September", "October", "November", "December"]

  const PrevLabel := "\U{2B05}\U{FE0F}"
  const RefreshLabel := "\U{1F504}"
  const NextLabel := "\U{27A1}\U{FE0F}"

  /** The data of every button that does nothing when pressed. */
  function IgnoreData(y: int, m: int): string {
    CreateCallbackData("IGNORE", y, m, 0)
  }

  function DayButton(y: int, m: int, d: int): Button {
    Button(IntToString(d), CreateCallbackData("DAY", y, m, d))
  }

  function PaddingButton(y: int, m: int): Button {
    Button(" ", IgnoreData(y, m))
  }

  function Title(y: int, m: int): string
    requires 1 <= m <= 12
  {
    MonthNames[m] + " " + IntToString(y)
  }

  function FirstWeekday(y: int, m: int): (first: int)
    requires ValidMonth(y, m)
    ensures 0 <= first < 7
  {
    Weekday(Date(y, m, 1))
  }

  /** `calendar.monthcalendar` flattened, for a month of `n` days whose 1st is
      weekday `first`: zeros up to `first`, the days 1..n, then zeros to the end
      of the last week. It is the fewest whole weeks that hold them. */
  function MonthCells(first: int, n: int): (days: seq<int>)
    requires 0 <= first < 7 && n >= 1
    ensures |days| % 7 == 0
    ensures first + n <= |days| < first + n + 7
  {
    var after := (0 - (first + n)) % 7;
    PadToWeek(first + n);
    seq(first, _ => 0) + seq(n, i => i + 1) + seq(after, _ => 0)
  }

  lemma PadToWeek(k: int)
    requires k >= 0
    ensures (k + (0 - k) % 7) % 7 == 0
    ensures (0 - k) % 7 == 0 <==> k % 7 == 0
  {
  }

  lemma MonthCellsAt(first: int, n: int, i: int)
    requires 0 <= first < 7 && n >= 1
    requires 0 <= i < |MonthCells(first, n)|
    ensures MonthCells(first, n)[i] == (if first <= i < first + n then i - first + 1 else 0)
  {
  }

  /** `calendar.monthcalendar(y, m)` flattened. */
  function MonthDays(y: int, m: int): seq<int>
    requires ValidMonth(y, m)
  {
    MonthCells(FirstWeekday(y, m), DaysInMonth(y, m))
  }

  function Cell(y: int, m: int, day: int): Button {
    if day == 0 then PaddingButton(y, m) else DayButton(y, m, day)
  }

  /** The title row and the weekday header, every button ignored. */
  function HeaderRows(y: int, m: int): Keyboard
    requires 1 <= m <= 12
  {
    var ignore := IgnoreData(y, m);
    [[Button(Title(y, m), ignore)], seq(7, c requires 0 <= c < 7 => Button(WeekdayNames[c], ignore))]
  }

  /** One row of seven cells per week of `days`. */
  function WeekRows(y: int, m: int, days: seq<int>): Keyboard
    requires |days| % 7 == 0
  {
    seq(|days| / 7, w requires 0 <= w < |days| / 7 =>
      seq(7, c requires 0 <= c < 7 => Cell(y, m, days[7 * w + c])))
  }

  /** The arrows around the refresh button, each carrying `day`. */
  function NavRow(y: int, m: int, day: int): seq<Button> {
    [Button(PrevLabel, CreateCallbackData("PREV-MONTH", y, m, day)),
     Button(RefreshLabel, IgnoreData(y, m)),
     Button(NextLabel, CreateCallbackData("NEXT-MONTH", y, m, day))]
  }

  /** `create_calendar(year, month)`. The navigation buttons carry the loop
      variable `day` left over from the week loop: the last cell of the last week. */
  function CreateCalendar(y: int, m: int): (kb: Keyboard)
    requires ValidMonth(y, m)
    ensures |kb| == |MonthDays(y, m)| / 7 + 3 && |kb[|kb| - 1]| == 3
  {
    var days := MonthDays(y, m);
    HeaderRows(y, m) + WeekRows(y, m, days) + [NavRow(y, m, days[|days| - 1])]
  }

  /** The last row of the calendar: left arrow, refresh, right arrow. */
  function NavigationButtons(y: int, m: int): (nav: seq<Button>)
    requires ValidMonth(y, m)
    ensures |nav| == 3
  {
    var kb := CreateCalendar(y, m);
    kb[|kb| - 1]
  }

  /** Number of week rows: enough to hold the leading blanks and every day. */
  function NumWeeks(y: int, m: int): int
    requires ValidMonth(y, m)
  {
    (FirstWeekday(y, m) + DaysInMonth(y, m) + 6) / 7
  }

  /** The shape of the calendar: one title button, seven weekday buttons,
      `NumWeeks` rows of seven cells, three navigation buttons. */
  lemma CalendarShape(y: int, m: int)
    requires ValidMonth(y, m)
    ensures var kb := CreateCalendar(y, m);
      && |kb| == NumWeeks(y, m) + 3
      && kb[0] == [Button(Title(y, m), IgnoreData(y, m))]
      && |kb[1]| == 7
      && (forall c :: 0 <= c < 7 ==> kb[1][c] == Button(WeekdayNames[c], IgnoreData(y, m)))
      && (forall w :: 2 <= w < |kb| - 1 ==> |kb[w]| == 7)
      && |kb[|kb| - 1]| == 3
  {
    var days := MonthDays(y, m);
    var kb: Keyboard := CreateCalendar(y, m);
    var weeks := WeekRows(y, m, days);
    WholeWeeks(FirstWeekday(y, m) + DaysInMonth(y, m), |days|);
    assert |weeks| == NumWeeks(y, m);
    assert forall w :: 2 <= w < |kb| - 1 ==> kb[w] == weeks[w - 2];
  }

  /** The fewest whole weeks holding `k` cells number `(k + 6) / 7`. */
  lemma WholeWeeks(k: int, len: int)
    requires len % 7 == 0 && k <= len < k + 7
    ensures len / 7 == (k + 6) / 7
  {
  }

  /** The day number that Monday-first week `w` (counted from 0) shows in
      column `c`: outside `1..DaysInMonth` the cell is blank. */
  function GridDay(y: int, m: int, w: int, c: int): int
    requires ValidMonth(y, m)
  {
    7 * w + c - FirstWeekday(y, m) + 1
  }

  /** The button the calendar should show in column `c` of week `w`. */
  function GridCell(y: int, m: int, w: int, c: int): Button
    requires ValidMonth(y, m)
  {
    var k := GridDay(y, m, w, c);
    if 1 <= k <= DaysInMonth(y, m) then DayButton(y, m, k) else PaddingButton(y, m)
  }

  /** Monday-first week rows: cell `c` of week `w` holds day `7w + c - first + 1`
      (with `first` the weekday of the 1st) when that is a day of the month, and
      a blank `IGNORE` cell otherwise. */
  lemma CalendarWeekCells(y: int, m: int)
    requires ValidMonth(y, m)
    ensures var kb := CreateCalendar(y, m);
      forall w, c :: 2 <= w < |kb| - 1 && 0 <= c < 7 ==> kb[w][c] == GridCell(y, m, w - 2, c)
  {
    var kb: Keyboard := CreateCalendar(y, m);
    var weeks := |MonthDays(y, m)| / 7;
    assert |kb| == weeks + 3;
    forall w, c | 2 <= w < |kb| - 1 && 0 <= c < 7
      ensures kb[w][c] == GridCell(y, m, w - 2, c)
    {
      assert w - 2 < weeks;
      WeekCell(y, m, w - 2, c);
    }
  }

  lemma WeekCell(y: int, m: int, w: int, c: int)
    requires ValidMonth(y, m)
    requires 0 <= w && 0 <= c < 7
    ensures var kb := CreateCalendar(y, m);
      w < |MonthDays(y, m)| / 7 ==> 2 + w < |kb| && kb[2 + w][c] == GridCell(y, m, w, c)
  {
    if w >= |MonthDays(y, m)| / 7 {
      return;
    }
    var first, n := FirstWeekday(y, m), DaysInMonth(y, m);
    var days := MonthCells(first, n);
    var kb: Keyboard := CreateCalendar(y, m);
    var weeks := WeekRows(y, m, days);
    assert kb == HeaderRows(y, m) + weeks + [NavRow(y, m, days[|days| - 1])];
    assert kb[2 + w] == weeks[w];
    assert weeks[w][c] == Cell(y, m, days[7 * w + c]);
    MonthCellsAt(first, n, 7 * w + c);
    assert GridDay(y, m, w, c) == 7 * w + c - first + 1;
  }

  /** The navigation row: previous month, refresh (ignored), next month. Both
      arrows carry the last cell of the last week as their day (`NavDay`): the
      month's length when the month ends on a Sunday, 0 otherwise. */
  lemma CalendarNavigationRow(y: int, m: int)
    requires ValidMonth(y, m)
    ensures var kb := CreateCalendar(y, m);
      kb[|kb| - 1] == [Button(PrevLabel, CreateCallbackData("PREV-MONTH", y, m, NavDay(y, m))),
                       Button(RefreshLabel, IgnoreData(y, m)),
                       Button(NextLabel, CreateCallbackData("NEXT-MONTH", y, m, NavDay(y, m)))]
  {
    var days := MonthDays(y, m);
    var kb: Keyboard := CreateCalendar(y, m);
    assert kb[|kb| - 1] == NavRow(y, m, days[|days| - 1]);
    LastCell(FirstWeekday(y, m), DaysInMonth(y, m));
  }

  /** The last cell of the last week is the last day exactly when the month
      ends on a Sunday, and blank otherwise. */
  lemma LastCell(first: int, n: int)
    requires 0 <= first < 7 && n >= 1
    ensures var days := MonthCells(first, n);
      days[|days| - 1] == if (first + n) % 7 == 0 then n else 0
  {
    var days := MonthCells(first, n);
    MonthCellsAt(first, n, |days| - 1);
    PadToWeek(first + n);
  }

  /** Every day of the month has exactly one button, at row-major position
      `d - 1 + first` of the week rows, so the days appear once each in
      ascending order: a button carries day `d`'s data if and only if it sits
      at that position. */
  lemma DayAppearsOnce(y: int, m: int, d: int)
    requires ValidMonth(y, m)
    requires 1 <= d <= DaysInMonth(y, m)
    ensures var kb := CreateCalendar(y, m);
      var pos := d - 1 + FirstWeekday(y, m);
      && 2 + pos / 7 < |kb| - 1
      && forall w, c :: 0 <= w < |kb| && 0 <= c < |kb[w]| ==>
           (kb[w][c].data == CreateCallbackData("DAY", y, m, d) <==> w == 2 + pos / 7 && c == pos % 7)
  {
    var kb: Keyboard := CreateCalendar(y, m);
    var pos := d - 1 + FirstWeekday(y, m);
    assert pos < |MonthDays(y, m)|;
    forall w, c | 0 <= w < |kb| && 0 <= c < |kb[w]|
      ensures kb[w][c].data == CreateCallbackData("DAY", y, m, d) <==> w == 2 + pos / 7 && c == pos % 7
    {
      DayAt(y, m, d, w, c);
    }
  }

  /** One cell of `DayAppearsOnce`: the header, the week rows, the navigation row. */
  lemma DayAt(y: int, m: int, d: int, w: int, c: int)
    requires ValidMonth(y, m)
    requires 1 <= d <= DaysInMonth(y, m)
    requires 0 <= w && 0 <= c
    ensures var kb := CreateCalendar(y, m);
      var pos := d - 1 + FirstWeekday(y, m);
      w < |kb| && c < |kb[w]| ==>
        (kb[w][c].data == CreateCallbackData("DAY", y, m, d) <==> w == 2 + pos / 7 && c == pos % 7)
  {
    var kb: Keyboard := CreateCalendar(y, m);
    if w >= |kb| || c >= |kb[w]| {
      return;
    }
    if w < 2 {
      HeaderNotDay(y, m, d, w, c);
    } else if w < |kb| - 1 {
      DayCell(y, m, d, w - 2, c);
    } else {
      NavigationNotDay(y, m, d, c);
    }
  }

  /** No title or weekday button carries a day's data. */
  lemma HeaderNotDay(y: int, m: int, d: int, w: int, c: int)
    requires ValidMonth(y, m)
    requires 0 <= w < 2 && 0 <= c
    ensures var kb := CreateCalendar(y, m);
      c < |kb[w]| ==> kb[w][c].data != CreateCallbackData("DAY", y, m, d)
  {
    var kb: Keyboard := CreateCalendar(y, m);
    assert kb[..2] == HeaderRows(y, m);
    assert kb[w] == HeaderRows(y, m)[w];
    if c < |kb[w]| {
      assert kb[w][c].data == IgnoreData(y, m);
      CallbackInjective("IGNORE", y, m, 0, "DAY", y, m, d);
    }
  }

  /** No navigation button carries a day's data. */
  lemma NavigationNotDay(y: int, m: int, d: int, c: int)
    requires ValidMonth(y, m)
    requires 0 <= c
    ensures var kb := CreateCalendar(y, m);
      c < 3 ==> kb[|kb| - 1][c].data != CreateCallbackData("DAY", y, m, d)
  {
    CalendarNavigationRow(y, m);
    CallbackInjective("IGNORE", y, m, 0, "DAY", y, m, d);
    CallbackInjective("PREV-MONTH", y, m, NavDay(y, m), "DAY", y, m, d);
    CallbackInjective("NEXT-MONTH", y, m, NavDay(y, m), "DAY", y, m, d);
  }

  /** The day the arrows of a rendered calendar carry. */
  function NavDay(y: int, m: int): int
    requires ValidMonth(y, m)
  {
    var first := FirstWeekday(y, m);
    var n := DaysInMonth(y, m);
    if (first + n) % 7 == 0 then n else 0
  }

  /** A week cell carries day `d`'s data exactly at `d`'s row-major position. */
  lemma DayCell(y: int, m: int, d: int, w: int, c: int)
    requires ValidMonth(y, m)
    requires 1 <= d <= DaysInMonth(y, m)
    requires 0 <= w < |MonthDays(y, m)| / 7 && 0 <= c < 7
    ensures var kb := CreateCalendar(y, m);
      var pos := d - 1 + FirstWeekday(y, m);
      2 + w < |kb| && (kb[2 + w][c].data == CreateCallbackData("DAY", y, m, d) <==> w == pos / 7 && c == pos % 7)
  {
    var pos := d - 1 + FirstWeekday(y, m);
    WeekCell(y, m, w, c);
    var k := GridDay(y, m, w, c);
    CallbackInjective("IGNORE", y, m, 0, "DAY", y, m, d);
    if 1 <= k <= DaysInMonth(y, m) {
      CallbackInjective("DAY", y, m, k, "DAY", y, m, d);
    }
    RowMajor(w, c, pos);
  }

  /** Position `7w + c` with `0 <= c < 7` is row `w`, column `c`. */
  lemma RowMajor(w: int, c: int, pos: int)
    requires 0 <= c < 7
    ensures pos == 7 * w + c <==> w == pos / 7 && c == pos % 7
  {
  }
}

=== FILE: calendar_selection.dfy ===
/** `process_calendar_selection` of cal.py (copied at main.py:274-301): decodes
    the pressed calendar button, returns the chosen date for a `DAY` button and
    re-renders the neighbouring month for the arrows. */
module CalendarSelection {
  import opened Common
  import opened Text
  import opened Gregorian
  import opened CallbackData
  import opened Markup
  import opened CalendarKeyboard

  /** `process_calendar_selection` on the query's callback data. Every call first
      unpacks exactly four fields and builds `datetime(year, month, 1)`, so the
      year and month must parse and name a real month whatever the action. A
      year or month outside the C `int` range raises `OverflowError` there, any
      other bad pair `ValueError`. */
  function ProcessCalendarSelection(data: string): (r: Result<Response<Date>, CallbackError>)
    ensures |SeparateCallbackData(data)| != 4 ==> r == Failure(BadFieldCount)
    ensures r.Success? ==> r.value.selected == r.value.value.Some?
    ensures r.Success? && r.value.selected ==> SeparateCallbackData(data)[0] == "DAY" && Valid(r.value.value.value)
    ensures var fields := SeparateCallbackData(data);
      |fields| == 4 && (ParseInt(fields[1]).None? || ParseInt(fields[2]).None?) ==> r == Failure(BadInteger)
    ensures var fields := SeparateCallbackData(data);
      |fields| == 4 && ParseInt(fields[1]).Some? && ParseInt(fields[2]).Some? ==>
        var y, m := ParseInt(fields[1]).value, ParseInt(fields[2]).value;
        && (!CInt(y) || !CInt(m) ==> r == Failure(DateOverflow))
        && (CInt(y) && CInt(m) && !ValidMonth(y, m) ==> r == Failure(BadDate))
        && (ValidMonth(y, m) ==> r == Dispatch(fields[0], y, m, fields[3]))
  {
    var fields := SeparateCallbackData(data);
    if |fields| != 4 then Failure(BadFieldCount)
    else
      match (ParseInt(fields[1]), ParseInt(fields[2]))
      case (None, _) => Failure(BadInteger)
      case (_, None) => Failure(BadInteger)
      case (Some(y), Some(m)) =>
        if !CInt(y) || !CInt(m) then Failure(DateOverflow)
        else if !ValidMonth(y, m) then Failure(BadDate)
        else Dispatch(fields[0], y, m, fields[3])
  }

  /** The branch on the action, once `curr = datetime(year, month, 1)` exists;
      only `DAY` reads the day field. */
  function Dispatch(action: string, y: int, m: int, dayField: string): (r: Result<Response<Date>, CallbackError>)
    requires ValidMonth(y, m)
    ensures r.Success? ==> r.value.selected == r.value.value.Some?
    ensures r.Success? && r.value.selected ==> action == "DAY" && Valid(r.value.value.value)
    ensures action == "IGNORE" ==> r == Success(Response(false, None, AnswerQuery(None)))
    ensures action == "DAY" ==>
      (r.Success? <==> ParseInt(dayField).Some? && Valid(Date(y, m, ParseInt(dayField).value)))
    ensures action == "DAY" ==>
      match ParseInt(dayField)
      case None => r == Failure(BadInteger)
      case Some(d) => !Valid(Date(y, m, d)) ==> r == Failure(if CInt(d) then BadDate else DateOverflow)
    ensures action == "PREV-MONTH" || action == "NEXT-MONTH" ==>
      (r.Failure? ==> r.error == DateOverflow) && (r.Success? ==> !r.value.selected && r.value.call.EditText?)
    ensures action != "IGNORE" && action != "DAY" && action != "PREV-MONTH" && action != "NEXT-MONTH" ==>
      r == Success(Response(false, None, AnswerQuery(Some(WentWrong))))
  {
    if action == "IGNORE" then Success(Response(false, None, AnswerQuery(None)))
    else if action == "DAY" then
      match ParseInt(dayField)
      case None => Failure(BadInteger)
      case Some(d) =>
        if !CInt(d) then Failure(DateOverflow)
        else if Valid(Date(y, m, d)) then Success(Response(true, Some(Date(y, m, d)), EditText(None)))
        else Failure(BadDate)
    else if action == "PREV-MONTH" then
      match PrevDay(Date(y, m, 1))
      case None => Failure(DateOverflow)
      case Some(pre) => Success(Response(false, None, EditText(Some(CreateCalendar(pre.year, pre.month)))))
    else if action == "NEXT-MONTH" then
      match AddDays(Date(y, m, 1), 31)
      case None => Failure(DateOverflow)
      case Some(ne) => Success(Response(false, None, EditText(Some(CreateCalendar(ne.year, ne.month)))))
    else Success(Response(false, None, AnswerQuery(Some(WentWrong))))
  }

  /** The data of a button built for a real month decodes back to its action,
      year and month, and the day field is the rendered day. */
  lemma EncodedSelection(action: string, y: int, m: int, day: int)
    requires ValidMonth(y, m) && Sep !in action
    ensures ProcessCalendarSelection(CreateCallbackData(action, y, m, day)) == Dispatch(action, y, m, IntToString(day))
  {
    var fields := SeparateCallbackData(CreateCallbackData(action, y, m, day));
    CallbackRoundTrip(action, y, m, day);
    ParseIntToString(y);
    ParseIntToString(m);
    assert ParseInt(fields[1]) == Some(y) && ParseInt(fields[2]) == Some(m);
  }

  /** Pressing the button of a real day returns `(True, date(y, m, d))`. */
  lemma DaySelected(y: int, m: int, d: int)
    requires Valid(Date(y, m, d))
    ensures ProcessCalendarSelection(CreateCallbackData("DAY", y, m, d))
            == Success(Response(true, Some(Date(y, m, d)), EditText(None)))
  {
    EncodedSelection("DAY", y, m, d);
    ParseIntToString(d);
  }

  /** A blank, title, weekday or refresh button of a real month selects nothing
      and only answers the query. */
  lemma IgnoreSelectsNothing(y: int, m: int)
    requires ValidMonth(y, m)
    ensures ProcessCalendarSelection(IgnoreData(y, m)) == Success(Response(false, None, AnswerQuery(None)))
  {
    EncodedSelection("IGNORE", y, m, 0);
  }

  /** The left arrow re-renders the preceding month (December of the previous
      year from January); from January of year 1 it overflows. The day field is
      never read. */
  lemma PrevMonthNavigation(y: int, m: int, day: int)
    requires ValidMonth(y, m)
    ensures ProcessCalendarSelection(CreateCallbackData("PREV-MONTH", y, m, day))
            == if (y, m) == (MinYear, 1) then Failure(DateOverflow)
               else Success(Response(false, None, EditText(Some(
                      CreateCalendar(PrecedingMonth(y, m).0, PrecedingMonth(y, m).1)))))
  {
    EncodedSelection("PREV-MONTH", y, m, day);
    FirstMinusOne(y, m);
  }

  /** The right arrow re-renders the following month (January of the next year
      from December): the first of the month plus 31 days always lands there.
      From December 9999 it overflows. The day field is never read. */
  lemma NextMonthNavigation(y: int, m: int, day: int)
    requires ValidMonth(y, m)
    ensures ProcessCalendarSelection(CreateCallbackData("NEXT-MONTH", y, m, day))
            == if (y, m) == (MaxYear, 12) then Failure(DateOverflow)
               else Success(Response(false, None, EditText(Some(
                      CreateCalendar(FollowingMonth(y, m).0, FollowingMonth(y, m).1)))))
  {
    EncodedSelection("NEXT-MONTH", y, m, day);
    FirstPlus31(y, m);
    if (y, m) != (MaxYear, 12) {
      var ne := AddDays(Date(y, m, 1), 31).value;
      assert (ne.year, ne.month) == FollowingMonth(y, m);
    }
  }

  /** Every button of a rendered calendar above the navigation row behaves as
      its position promises: a day cell selects that day, and every other cell
      (title, weekday header, blank) selects nothing and only answers the query. */
  lemma CalendarGridButtons(y: int, m: int)
    requires ValidMonth(y, m)
    ensures var kb := CreateCalendar(y, m);
      forall w, c :: 0 <= w < |kb| - 1 && 0 <= c < |kb[w]| ==>
        ProcessCalendarSelection(kb[w][c].data)
          == if 2 <= w && 1 <= GridDay(y, m, w - 2, c) <= DaysInMonth(y, m)
             then Success(Response(true, Some(Date(y, m, GridDay(y, m, w - 2, c))), EditText(None)))
             else Success(Response(false, None, AnswerQuery(None)))
  {
    var kb: Keyboard := CreateCalendar(y, m);
    CalendarShape(y, m);
    CalendarWeekCells(y, m);
    IgnoreSelectsNothing(y, m);
    forall w, c | 0 <= w < |kb| - 1 && 0 <= c < |kb[w]|
      ensures ProcessCalendarSelection(kb[w][c].data)
              == if 2 <= w && 1 <= GridDay(y, m, w - 2, c) <= DaysInMonth(y, m)
                 then Success(Response(true, Some(Date(y, m, GridDay(y, m, w - 2, c))), EditText(None)))
                 else Success(Response(false, None, AnswerQuery(None)))
    {
      var k := if 2 <= w then GridDay(y, m, w - 2, c) else 0;
      if 2 <= w && 1 <= k <= DaysInMonth(y, m) {
        DaySelected(y, m, k);
      } else {
        assert kb[w][c].data == IgnoreData(y, m);
      }
    }
  }

  /** The left arrow of a rendered calendar moves to the preceding month. */
  lemma LeftArrowButton(y: int, m: int)
    requires ValidMonth(y, m)
    ensures ProcessCalendarSelection(NavigationButtons(y, m)[0].data)
            == if (y, m) == (MinYear, 1) then Failure(DateOverflow)
               else Success(Response(false, None, EditText(Some(
                      CreateCalendar(PrecedingMonth(y, m).0, PrecedingMonth(y, m).1)))))
  {
    CalendarNavigationRow(y, m);
    assert NavigationButtons(y, m)[0].data == CreateCallbackData("PREV-MONTH", y, m, NavDay(y, m));
    PrevMonthNavigation(y, m, NavDay(y, m));
  }

  /** The refresh button of a rendered calendar selects nothing. */
  lemma RefreshButton(y: int, m: int)
    requires ValidMonth(y, m)
    ensures ProcessCalendarSelection(NavigationButtons(y, m)[1].data) == Success(Response(false, None, AnswerQuery(None)))
  {
    CalendarNavigationRow(y, m);
    assert NavigationButtons(y, m)[1].data == IgnoreData(y, m);
    IgnoreSelectsNothing(y, m);
  }

  /** The right arrow of a rendered calendar moves to the following month. */
  lemma RightArrowButton(y: int, m: int)
    requires ValidMonth(y, m)
    ensures ProcessCalendarSelection(NavigationButtons(y, m)[2].data)
            == if (y, m) == (MaxYear, 12) then Failure(DateOverflow)
               else Success(Response(false, None, EditText(Some(
                      CreateCalendar(FollowingMonth(y, m).0, FollowingMonth(y, m).1)))))
  {
    CalendarNavigationRow(y, m);
    assert NavigationButtons(y, m)[2].data == CreateCallbackData("NEXT-MONTH", y, m, NavDay(y, m));
    NextMonthNavigation(y, m, NavDay(y, m));
  }
}

=== FILE: callback_data.dfy ===
/** The callback-data codec shared by the calendar and option keyboards
    (cal.py and its copy in main.py): four fields joined with `;`. */
module CallbackData {
  import opened Text

  const Sep := ';'

  /** `create_callback_data(action, year, month, day)`. */
  function CreateCallbackData(action: string, year: int, month: int, day: int): string {
    Join([action, IntToString(year), IntToString(month), IntToString(day)], Sep)
  }

  /** `separate_callback_data(data)`. */
  function SeparateCallbackData(data: string): (fields: seq<string>)
    ensures |fields| >= 1
  {
    Split(data, Sep)
  }

  /** Decoding an encoding gives back the action and the decimal renderings of
      year, month and day, provided the action itself holds no `;`. */
  lemma CallbackRoundTrip(action: string, year: int, month: int, day: int)
    requires Sep !in action
    ensures SeparateCallbackData(CreateCallbackData(action, year, month, day))
            == [action, IntToString(year), IntToString(month), IntToString(day)]
  {
    IntToStringAlphabet(year, Sep);
    IntToStringAlphabet(month, Sep);
    IntToStringAlphabet(day, Sep);
    var fields := [action, IntToString(year), IntToString(month), IntToString(day)];
    SplitJoin(fields, Sep);
  }

  /** Distinct buttons carry distinct data: the encoding is injective for `;`-free actions. */
  lemma CallbackInjective(a1: string, y1: int, m1: int, d1: int, a2: string, y2: int, m2: int, d2: int)
    requires Sep !in a1 && Sep !in a2
    ensures CreateCallbackData(a1, y1, m1, d1) == CreateCallbackData(a2, y2, m2, d2)
            <==> a1 == a2 && y1 == y2 && m1 == m2 && d1 == d2
  {
    CallbackRoundTrip(a1, y1, m1, d1);
    CallbackRoundTrip(a2, y2, m2, d2);
    IntToStringInjective(y1, y2);
    IntToStringInjective(m1, m2);
    IntToStringInjective(d1, d2);
  }
}

=== FILE: common.dfy ===
/** Failure-carrying values shared by every module of the model: `Option` for
    Python's `None`-or-value results and `Result` for operations that can raise. */
module Common {

  datatype Option<+T> = None | Some(value: T)

  /** `Failure` carries the Python exception an operation would raise. */
  datatype Result<+T, +E> = Success(value: T) | Failure(error: E)
}

=== FILE: gregorian.dfy ===
/** The proleptic Gregorian calendar as Python's `datetime` module uses it:
    years 1..9999, ordinals counted from 0001-01-01 (ordinal 1, a Monday),
    and `timedelta` day arithmetic that raises `OverflowError` past either end. */
module Gregorian {
  import opened Common

  const MinYear := 1
  const MaxYear := 9999

  datatype Date = Date(year: int, month: int, day: int)

  predicate IsLeap(y: int) {
    y % 4 == 0 && (y % 100 != 0 || y % 400 == 0)
  }

  function DaysInMonth(y: int, m: int): (n: int)
    requires 1 <= m <= 12
    ensures 28 <= n <= 31
  {
    if m == 2 then (if IsLeap(y) then 29 else 28)
    else if m == 4 || m == 6 || m == 9 || m == 11 then 30
    else 31
  }

  function DaysInYear(y: int): int {
    if IsLeap(y) then 366 else 365
  }

  predicate ValidMonth(y: int, m: int) {
    MinYear <= y <= MaxYear && 1 <= m <= 12
  }

  /** What the C constructor of `datetime` can take as one argument: each of
      year, month and day is read as a C `int`, and a value outside its range
      raises `OverflowError` before the date itself is checked. */
  predicate CInt(n: int) {
    -0x8000_0000 <= n <= 0x7fff_ffff
  }

  /** What `datetime.date(y, m, d)` accepts without raising `ValueError`. */
  predicate Valid(d: Date) {
    ValidMonth(d.year, d.month) && 1 <= d.day <= DaysInMonth(d.year, d.month)
  }

  /** Days in the years before `y`, as Python's `_days_before_year`. */
  function DaysBeforeYear(y: int): int
    requires y >= 1
  {
    var p := y - 1;
    p * 365 + p / 4 - p / 100 + p / 400
  }

  /** Days in the months of year `y` before month `m`, as Python's `_days_before_month`. */
  function DaysBeforeMonth(y: int, m: int): int
    requires 1 <= m <= 12
  {
    var table := [0, 31, 59, 90, 120, 151, 181, 212, 243, 273, 304, 334];
    table[m - 1] + (if m > 2 && IsLeap(y) then 1 else 0)
  }

  /** Python's `date.toordinal()`. */
  function Ordinal(d: Date): int
    requires Valid(d)
  {
    DaysBeforeYear(d.year) + DaysBeforeMonth(d.year, d.month) + d.day
  }

  /** Python's `date.weekday()`: Monday is 0, Sunday is 6. */
  function Weekday(d: Date): (w: int)
    requires Valid(d)
    ensures 0 <= w < 7
  {
    (Ordinal(d) + 6) % 7
  }

  /** `d + timedelta(days=1)`; `None` stands for the `OverflowError` after 9999-12-31. */
  function NextDay(d: Date): (r: Option<Date>)
    requires Valid(d)
    ensures r.Some? ==> Valid(r.value)
  {
    if d.day < DaysInMonth(d.year, d.month) then Some(Date(d.year, d.month, d.day + 1))
    else if d.month < 12 then Some(Date(d.year, d.month + 1, 1))
    else if d.year < MaxYear then Some(Date(d.year + 1, 1, 1))
    else None
  }

  /** `d - timedelta(days=1)`; `None` stands for the `OverflowError` before 0001-01-01. */
  function PrevDay(d: Date): (r: Option<Date>)
    requires Valid(d)
    ensures r.Some? ==> Valid(r.value)
  {
    if d.day > 1 then Some(Date(d.year, d.month, d.day - 1))
    else if d.month > 1 then Some(Date(d.year, d.month - 1, DaysInMonth(d.year, d.month - 1)))
    else if d.year > MinYear then Some(Date(d.year - 1, 12, 31))
    else None
  }

  /** `d + timedelta(days=n)`, one day at a time. */
  function AddDays(d: Date, n: nat): (r: Option<Date>)
    requires Valid(d)
    ensures r.Some? ==> Valid(r.value)
    decreases n
  {
    if n == 0 then Some(d)
    else match NextDay(d)
      case None => None
      case Some(e) => AddDays(e, n - 1)
  }

  lemma Step4(p: int)
    requires p >= 0
    ensures (p + 1) / 4 == p / 4 + (if (p + 1) % 4 == 0 then 1 else 0)
  {
  }

  lemma Step100(p: int)
    requires p >= 0
    ensures (p + 1) / 100 == p / 100 + (if (p + 1) % 100 == 0 then 1 else 0)
  {
  }

  lemma Step400(p: int)
    requires p >= 0
    ensures (p + 1) / 400 == p / 400 + (if (p + 1) % 400 == 0 then 1 else 0)
  {
  }

  /** A year's length is what the ordinal count advances by over it. */
  lemma DaysBeforeNextYear(y: int)
    requires y >= 1
    ensures DaysBeforeYear(y + 1) == DaysBeforeYear(y) + DaysInYear(y)
  {
    var p := y - 1;
    Step4(p);
    Step100(p);
    Step400(p);
    assert (p + 1) * 365 == p * 365 + 365;
    LeapDivisors(y);
  }

  /** A multiple of 400 is a multiple of 100, and a multiple of 100 one of 4. */
  lemma LeapDivisors(y: int)
    ensures y % 400 == 0 ==> y % 100 == 0
    ensures y % 100 == 0 ==> y % 4 == 0
  {
    if y % 400 == 0 {
      var k := 4 * (y / 400);
      assert y == 100 * k;
      Mod100Multiple(k);
    }
    if y % 100 == 0 {
      var k := 25 * (y / 100);
      assert y == 4 * k;
      Mod4Multiple(k);
    }
  }

  lemma Mod100Multiple(k: int)
    ensures (100 * k) % 100 == 0
  {
  }

  lemma Mod4Multiple(k: int)
    ensures (4 * k) % 4 == 0
  {
  }

  /** A month's length is what the ordinal count advances by over it. */
  lemma MonthStep(y: int, m: int)
    requires 1 <= m < 12
    ensures DaysBeforeMonth(y, m + 1) == DaysBeforeMonth(y, m) + DaysInMonth(y, m)
  {
  }

  /** `NextDay` agrees with Python's ordinal arithmetic: the next day has the next ordinal. */
  lemma NextDayOrdinal(d: Date)
    requires Valid(d)
    ensures NextDay(d).Some? ==> Ordinal(NextDay(d).value) == Ordinal(d) + 1
    ensures NextDay(d).None? <==> d == Date(MaxYear, 12, 31)
  {
    if d.day < DaysInMonth(d.year, d.month) {
    } else if d.month < 12 {
      MonthStep(d.year, d.month);
    } else if d.year < MaxYear {
      DaysBeforeNextYear(d.year);
      assert DaysBeforeMonth(d.year, 12) + 31 == DaysInYear(d.year);
    }
  }

  /** `PrevDay` agrees with Python's ordinal arithmetic: the previous day has the previous ordinal. */
  lemma PrevDayOrdinal(d: Date)
    requires Valid(d)
    ensures PrevDay(d).Some? ==> Ordinal(PrevDay(d).value) == Ordinal(d) - 1
    ensures PrevDay(d).None? <==> d == Date(MinYear, 1, 1)
  {
    if d.day > 1 {
    } else if d.month > 1 {
      MonthStep(d.year, d.month - 1);
    } else if d.year > MinYear {
      DaysBeforeNextYear(d.year - 1);
      assert DaysBeforeMonth(d.year - 1, 12) + 31 == DaysInYear(d.year - 1);
    }
  }

  /** The ordinal of 9999-12-31, the last day `datetime` can represent. */
  function LastOrdinal(): int {
    Ordinal(Date(MaxYear, 12, 31))
  }

  /** Every representable day has an ordinal of at most `LastOrdinal()`. */
  lemma OrdinalBounded(d: Date)
    requires Valid(d)
    ensures Ordinal(d) <= LastOrdinal()
  {
    MonthWithinYear(d.year, d.month);
    DaysBeforeNextYear(d.year);
    DaysBeforeYearMonotone(d.year + 1, MaxYear + 1);
    DaysBeforeNextYear(MaxYear);
  }

  /** A month ends no later than its year does. */
  lemma MonthWithinYear(y: int, m: int)
    requires 1 <= m <= 12
    ensures DaysBeforeMonth(y, m) + DaysInMonth(y, m) <= DaysInYear(y)
  {
  }

  lemma {:induction false} DaysBeforeYearMonotone(a: int, b: int)
    requires 1 <= a <= b
    ensures DaysBeforeYear(a) <= DaysBeforeYear(b)
    decreases b - a
  {
    if a < b {
      DaysBeforeNextYear(a);
      DaysBeforeYearMonotone(a + 1, b);
    }
  }

  /** `AddDays` is ordinal addition, as `date + timedelta` is in Python, and it
      overflows exactly when the ordinal would pass that of 9999-12-31. */
  lemma {:induction false} AddDaysOrdinal(d: Date, n: nat)
    requires Valid(d)
    ensures AddDays(d, n).Some? ==> Ordinal(AddDays(d, n).value) == Ordinal(d) + n
    ensures AddDays(d, n).None? <==> Ordinal(d) + n > LastOrdinal()
    decreases n
  {
    OrdinalBounded(d);
    if n > 0 {
      NextDayOrdinal(d);
      if NextDay(d).Some? {
        AddDaysOrdinal(NextDay(d).value, n - 1);
        OrdinalBounded(NextDay(d).value);
      }
    }
  }

  /** Adding days that stay inside the month only moves the day number. */
  lemma {:induction false} AddDaysWithinMonth(d: Date, n: nat)
    requires Valid(d)
    requires d.day + n <= DaysInMonth(d.year, d.month)
    ensures AddDays(d, n) == Some(Date(d.year, d.month, d.day + n))
    decreases n
  {
    if n > 0 {
      AddDaysWithinMonth(Date(d.year, d.month, d.day + 1), n - 1);
    }
  }

  /** The month after (y, m), wrapping December to January of the next year. */
  function FollowingMonth(y: int, m: int): (int, int) {
    if m == 12 then (y + 1, 1) else (y, m + 1)
  }

  /** The month before (y, m), wrapping January to December of the previous year. */
  function PrecedingMonth(y: int, m: int): (int, int) {
    if m == 1 then (y - 1, 12) else (y, m - 1)
  }

  /** The first of a month plus 31 days is always in the following month (every
      month has 28 to 31 days), on day `32 - DaysInMonth(y, m)`; it overflows
      exactly for December 9999. */
  lemma FirstPlus31(y: int, m: int)
    requires ValidMonth(y, m)
    ensures var r := AddDays(Date(y, m, 1), 31);
      && (r.None? <==> (y, m) == (MaxYear, 12))
      && (r.Some? ==> (r.value.year, r.value.month) == FollowingMonth(y, m))
      && (r.Some? ==> r.value.day == 32 - DaysInMonth(y, m))
  {
    var n := DaysInMonth(y, m);
    AddDaysWithinMonth(Date(y, m, 1), n - 1);
    AddDaysSplit(Date(y, m, 1), n - 1, 32 - n);
    var last := Date(y, m, n);
    if NextDay(last).Some? {
      var first := NextDay(last).value;
      AddDaysWithinMonth(first, 31 - n);
    }
  }

  lemma {:induction false} AddDaysSplit(d: Date, a: nat, b: nat)
    requires Valid(d)
    ensures AddDays(d, a + b) == (match AddDays(d, a) case None => None case Some(e) => AddDays(e, b))
    decreases a
  {
    if a > 0 {
      match NextDay(d)
      case None =>
      case Some(e) =>
        AddDaysSplit(e, a - 1, b);
    }
  }

  /** The first of a month minus one day is the last day of the preceding month;
      it overflows exactly for January of year 1. */
  lemma FirstMinusOne(y: int, m: int)
    requires ValidMonth(y, m)
    ensures var r := PrevDay(Date(y, m, 1));
      && (r.None? <==> (y, m) == (MinYear, 1))
      && (r.Some? ==> (r.value.year, r.value.month) == PrecedingMonth(y, m))
      && (r.Some? ==> r.value.day == DaysInMonth(r.value.year, r.value.month))
  {
  }
}

=== FILE: job_persistence.dfy ===
/** Persistence of the job queue across restarts (loadjobs.py). `save_jobs`
    writes one pickled `(next_t, job)` record per heap entry, swapping the job's
    queue back-reference and its two `threading.Event` flags for pickleable
    values and putting the originals back afterwards; `load_jobs` reads the
    records back, gives every job fresh Event objects set from the saved
    booleans, and re-inserts it with a delay relative to one reading of the clock. */
module JobPersistence {
  import opened Common

  /** Identity of a `threading.Event` object. */
  type EventId = nat

  /** The Event objects of the process, by identity; `true` means set. */
  type Events = seq<bool>

  /** The value of a job's `_remove` or `_enabled` attribute: a live Event, or
      the plain boolean it holds while the job is being pickled. */
  datatype Flag = Event(id: EventId) | Plain(b: bool)

  /** Identity of a `JobQueue` object, the target of a job's `_job_queue`. */
  type QueueId = nat

  /** The attributes of a `telegram.ext.Job` that persistence carries unchanged. */
  datatype JobBody = JobBody(callback: string, interval: Option<real>, repeat: bool, context: string, name: string)

  datatype Job = Job(queue: Option<QueueId>, remove: Flag, enabled: Flag, body: JobBody)

  /** One `(next_t, job)` tuple of the queue's heap; `nextT` is absolute time. */
  datatype Entry = Entry(nextT: real, job: Job)

  /** A job queue: its identity and the underlying list `_queue.queue`, in heap order. */
  datatype JobQueue = JobQueue(id: QueueId, heap: seq<Entry>)

  /** One pickled `(next_t, job)` tuple of the jobs file. */
  datatype Record = Record(nextT: real, job: Job)

  /** One `jq._put(job, next_t)` call, with the relative delay it is given. */
  datatype Put = Put(job: Job, delay: real)

  /** What loading leaves behind: the `_put` calls in order and the Event objects. */
  datatype Loaded = Loaded(puts: seq<Put>, events: Events)

  /** `open(JOBS_PICKLE, 'rb')` raising `FileNotFoundError`. */
  datatype LoadError = FileNotFound

  predicate LiveFlag(f: Flag, events: Events) {
    f.Event? && f.id < |events|
  }

  /** A job as the queue holds it: both flags are existing Event objects. */
  predicate LiveJob(job: Job, events: Events) {
    LiveFlag(job.remove, events) && LiveFlag(job.enabled, events)
  }

  predicate LiveQueue(entries: seq<Entry>, events: Events) {
    forall i :: 0 <= i < |entries| ==> LiveJob(entries[i].job, events)
  }

  /** `Event.is_set()`, which `job.removed` and `job.enabled` report. */
  function IsSet(f: Flag, events: Events): bool
    requires LiveFlag(f, events)
  {
    events[f.id]
  }

  /** Python truthiness of a loaded flag attribute: a boolean is itself, an
      object without `__bool__` is true. */
  function Truthy(f: Flag): bool {
    match f
    case Plain(b) => b
    case Event(_) => true
  }

  /** The list `save_jobs` walks: the heap of a queue, or nothing when `jq` is falsy. */
  function Snapshot(jq: Option<JobQueue>): (entries: seq<Entry>)
    ensures jq.None? ==> entries == []
  {
    if jq.Some? then jq.value.heap else []
  }

  /** `file` is what saving `entries` writes: one record per entry, in order,
      with the absolute time unchanged, no queue reference, each flag replaced by
      the boolean its Event held, and everything else as it was. */
  ghost predicate SavedAs(file: seq<Record>, entries: seq<Entry>, events: Events)
    requires LiveQueue(entries, events)
  {
    && |file| == |entries|
    && forall i :: 0 <= i < |file| ==>
         && file[i].nextT == entries[i].nextT
         && file[i].job.queue == None
         && file[i].job.remove == Plain(IsSet(entries[i].job.remove, events))
         && file[i].job.enabled == Plain(IsSet(entries[i].job.enabled, events))
         && file[i].job.body == entries[i].job.body
  }

  /** `save_jobs(jq)`: returns the records of the freshly truncated file
      (`'wb'`) and the queue's list as it stands afterwards, which is exactly the
      list it was: every backed-up attribute is put back. */
  method SaveJobs(jq: Option<JobQueue>, events: Events) returns (file: seq<Record>, live: seq<Entry>)
    requires jq.Some? ==> LiveQueue(jq.value.heap, events)
    ensures jq.None? ==> file == []
    ensures SavedAs(file, Snapshot(jq), events)
    ensures live == Snapshot(jq)
  {
    var entries := if jq.Some? then jq.value.heap else [];
    live := entries;
    file := [];
    var i := 0;
    while i < |entries|
      invariant 0 <= i <= |entries|
      invariant live == entries
      invariant SavedAs(file, entries[..i], events)
    {
      var nextT := live[i].nextT;
      var job := live[i].job;
      // back up the attributes that cannot be pickled
      var queue, remove, enabled := job.queue, job.remove, job.enabled;
      // replace them: no back-reference, each Event by its current state
      job := job.(queue := None);
      job := job.(remove := Plain(IsSet(job.remove, events)));
      job := job.(enabled := Plain(IsSet(job.enabled, events)));
      live := live[i := Entry(nextT, job)];
      // pickle the tuple
      file := file + [Record(live[i].nextT, live[i].job)];
      // restore the originals
      job := live[i].job.(queue := queue, remove := remove, enabled := enabled);
      live := live[i := Entry(nextT, job)];
      i := i + 1;
    }
  }

  /** `p` is the `_put` made for `record`, whose two new Event objects are
      `base` (for `_enabled`) and `base + 1` (for `_remove`) in `events`. */
  ghost predicate PutFor(record: Record, now: real, base: nat, p: Put, events: Events) {
    && p.delay == record.nextT - now
    && p.job == record.job.(enabled := Event(base), remove := Event(base + 1))
    && base + 1 < |events|
    && events[base] == Truthy(record.job.enabled)
    && events[base + 1] == Truthy(record.job.remove)
  }

  /** The loop of `load_jobs` over the records left in the file: for each one,
      two new Event objects (`_enabled` first, then `_remove`), each set exactly
      when the saved value is truthy, and a `_put` with delay `next_t - now`,
      which is negative for an overdue job. Existing Event objects are untouched. */
  function Reinsert(records: seq<Record>, now: real, events: Events): (r: Loaded)
    ensures |r.puts| == |records|
    ensures |r.events| == |events| + 2 * |records|
    ensures r.events[..|events|] == events
    ensures forall i :: 0 <= i < |records| ==> PutFor(records[i], now, |events| + 2 * i, r.puts[i], r.events)
    decreases |records|
  {
    if |records| == 0 then Loaded([], events)
    else
      var record := records[0];
      // Event() starts cleared and is set() when the saved value is truthy
      var set2 := events + [Truthy(record.job.enabled), Truthy(record.job.remove)];
      var job := record.job.(enabled := Event(|events|), remove := Event(|events| + 1));
      var rest := Reinsert(records[1..], now, set2);
      var put := Put(job, record.nextT - now);
      PrefixOfPrefix(rest.events, set2, events);
      assert PutFor(record, now, |events|, put, rest.events);
      PutsShift(records, now, |events|, put, rest);
      Loaded([put] + rest.puts, rest.events)
  }

  /** The puts for the tail, made after the head's two Events, line up with
      the records once the head's put is put in front. */
  lemma PutsShift(records: seq<Record>, now: real, base: nat, first: Put, rest: Loaded)
    requires |records| > 0 && |rest.puts| == |records| - 1
    requires PutFor(records[0], now, base, first, rest.events)
    requires forall i :: 0 <= i < |records| - 1 ==> PutFor(records[1..][i], now, base + 2 + 2 * i, rest.puts[i], rest.events)
    ensures forall i :: 0 <= i < |records| ==> PutFor(records[i], now, base + 2 * i, ([first] + rest.puts)[i], rest.events)
  {
    forall i | 0 < i < |records|
      ensures PutFor(records[i], now, base + 2 * i, ([first] + rest.puts)[i], rest.events)
    {
      assert records[i] == records[1..][i - 1];
      assert ([first] + rest.puts)[i] == rest.puts[i - 1];
      assert base + 2 + 2 * (i - 1) == base + 2 * i;
    }
  }

  lemma PrefixOfPrefix(a: seq<bool>, b: seq<bool>, c: seq<bool>)
    requires |b| <= |a| && a[..|b|] == b && |c| <= |b| && b[..|c|] == c
    ensures a[..|c|] == c
    ensures forall k :: 0 <= k < |b| ==> a[k] == b[k]
  {
    assert forall k :: 0 <= k < |b| ==> a[k] == a[..|b|][k];
  }

  /** `load_jobs(jq)` with `now = time()` read once up front: a missing file
      raises, otherwise one `_put` per record, in file order. */
  function LoadJobs(file: Option<seq<Record>>, now: real, events: Events): (r: Result<Loaded, LoadError>)
    ensures file.None? <==> r == Failure(FileNotFound)
    ensures r.Success? ==> |r.value.puts| == |file.value|
    ensures r.Success? ==> |r.value.events| >= |events| && r.value.events[..|events|] == events
    ensures r.Success? ==> forall i :: 0 <= i < |r.value.puts| ==>
      && r.value.puts[i].job.enabled.Event? && r.value.puts[i].job.remove.Event?
      && |events| <= r.value.puts[i].job.enabled.id < |r.value.events|
      && |events| <= r.value.puts[i].job.remove.id < |r.value.events|
  {
    match file
    case None => Failure(FileNotFound)
    case Some(records) => Success(Reinsert(records, now, events))
  }

  /** The start-up step of `main` (loadjobs.py:77-82): a missing file is a first
      run and leaves everything as it was. */
  function Startup(file: Option<seq<Record>>, now: real, events: Events): (r: Loaded)
    ensures file.None? ==> r == Loaded([], events)
    ensures file.Some? ==> |r.puts| == |file.value|
  {
    match LoadJobs(file, now, events)
    case Failure(FileNotFound) => Loaded([], events)
    case Success(loaded) => loaded
  }

  /** Every loaded job gets Event objects of its own: no two flags of the loaded
      jobs share an object, and none is an object that existed before. */
  lemma LoadedFlagsFresh(records: seq<Record>, now: real, events: Events)
    ensures var r := Reinsert(records, now, events);
      && (forall i, j :: 0 <= i < |records| && 0 <= j < |records| ==>
            r.puts[i].job.enabled != r.puts[j].job.remove)
      && (forall i, j :: 0 <= i < j < |records| ==>
            r.puts[i].job.enabled != r.puts[j].job.enabled && r.puts[i].job.remove != r.puts[j].job.remove)
      && (forall i :: 0 <= i < |records| ==>
            r.puts[i].job.enabled.id >= |events| && r.puts[i].job.remove.id >= |events|)
  {
    var r := Reinsert(records, now, events);
    var puts := r.puts;
    forall i | 0 <= i < |records|
      ensures puts[i].job.enabled == Event(|events| + 2 * i)
      ensures puts[i].job.remove == Event(|events| + 2 * i + 1)
    {
      assert PutFor(records[i], now, |events| + 2 * i, puts[i], r.events);
    }
    forall i, j | 0 <= i < |records| && 0 <= j < |records|
      ensures puts[i].job.enabled != puts[j].job.remove
    {
      EvenNotOdd(i, j);
    }
  }

  lemma EvenNotOdd(i: int, j: int)
    ensures 2 * i != 2 * j + 1
  {
  }

  /** Saving and then loading keeps every job, in order, with the same flag
      values and the same body, and re-inserts it with a delay that puts it back
      at its absolute time: `now + delay == next_t`, whatever `now` is. */
  lemma SaveLoadRoundTrip(entries: seq<Entry>, saveEvents: Events, file: seq<Record>, now: real, loadEvents: Events)
    requires LiveQueue(entries, saveEvents)
    requires SavedAs(file, entries, saveEvents)
    ensures var r := LoadJobs(Some(file), now, loadEvents);
      && r.Success?
      && |r.value.puts| == |entries|
      && forall i :: 0 <= i < |entries| ==>
           && LiveJob(r.value.puts[i].job, r.value.events)
           && IsSet(r.value.puts[i].job.enabled, r.value.events) == IsSet(entries[i].job.enabled, saveEvents)
           && IsSet(r.value.puts[i].job.remove, r.value.events) == IsSet(entries[i].job.remove, saveEvents)
           && r.value.puts[i].job.body == entries[i].job.body
           && r.value.puts[i].job.queue == None
           && now + r.value.puts[i].delay == entries[i].nextT
  {
    var r := Reinsert(file, now, loadEvents);
    forall i | 0 <= i < |entries|
      ensures PutFor(file[i], now, |loadEvents| + 2 * i, r.puts[i], r.events)
    {
    }
  }

  /** Saving with no queue writes an empty file, and loading it inserts nothing. */
  lemma EmptySaveLoadsNothing(file: seq<Record>, now: real, events: Events)
    requires SavedAs(file, Snapshot(None), events)
    ensures LoadJobs(Some(file), now, events) == Success(Loaded([], events))
  {
  }
}

=== FILE: markup.dfy ===
/** The shapes the keyboard handlers exchange with Telegram: buttons, keyboards,
    the bot call a callback query answers with, and the `(selected, value)`
    pair the handlers return. */
module Markup {
  import opened Common

  /** An `InlineKeyboardButton` with its label and callback data. */
  datatype Button = Button(text: string, data: string)

  /** An `InlineKeyboardMarkup`: rows of buttons, top to bottom. */
  type Keyboard = seq<seq<Button>>

  /** The one Telegram call a callback handler makes: `answer_callback_query`
      (with an optional alert text) or `edit_message_text` (with an optional new
      keyboard). The unchanged message text and ids are not modelled. */
  datatype BotCall = AnswerQuery(alert: Option<string>) | EditText(markup: Option<Keyboard>)

  /** The handler's return tuple `(selected, value)` together with its bot call. */
  datatype Response<+T> = Response(selected: bool, value: Option<T>, call: BotCall)

  /** The exceptions a malformed callback raises: the tuple unpacking of the
      split fields (`ValueError`), `int()` (`ValueError`), `datetime(...)` on
      C `int` arguments that name no date (`ValueError`), and `OverflowError`
      from either a `datetime(...)` argument outside the C `int` range or
      `timedelta` arithmetic past year 1 or 9999. */
  datatype CallbackError = BadFieldCount | BadInteger | BadDate | DateOverflow

  const WentWrong := "Something went wrong!"
}

=== FILE: memo_cache.dfy ===
/** The time-to-live memoiser `MWT` of main.py: a class-wide table from each
    decorated function to a dict `key -> (value, timestamp)`, an explicit
    `collect` sweep, and expiry checked on every lookup. Time is a parameter. */
module MemoCache {

  /** A cached `(value, time.time())` pair. */
  datatype Stamped<V> = Stamped(value: V, time: real)

  /** One function's cache dict. */
  type Store<K, V> = map<K, Stamped<V>>

  // ---------------------------------------------------------------------------
  // Cache keys: `(args, tuple(sorted(kwargs.items())))`

  /** Python's `<` on `str`: lexicographic by code point. */
  predicate StrLess(a: string, b: string)
    decreases |a|
  {
    if |a| == 0 then |b| > 0
    else if |b| == 0 then false
    else if a[0] != b[0] then a[0] < b[0]
    else StrLess(a[1..], b[1..])
  }

  lemma {:induction false} StrLessIrreflexive(a: string)
    ensures !StrLess(a, a)
    decreases |a|
  {
    if |a| > 0 {
      StrLessIrreflexive(a[1..]);
    }
  }

  lemma {:induction false} StrLessTransitive(a: string, b: string, c: string)
    requires StrLess(a, b) && StrLess(b, c)
    ensures StrLess(a, c)
    decreases |a|
  {
    if |a| > 0 && a[0] == b[0] && b[0] == c[0] {
      StrLessTransitive(a[1..], b[1..], c[1..]);
    }
  }

  lemma {:induction false} StrLessTotal(a: string, b: string)
    requires a != b
    ensures StrLess(a, b) || StrLess(b, a)
    decreases |a|
  {
    if |a| > 0 && |b| > 0 && a[0] == b[0] {
      assert a == [a[0]] + a[1..] && b == [b[0]] + b[1..];
      StrLessTotal(a[1..], b[1..]);
    }
  }

  /** Keyword arguments as `kwargs.items()`: name and value pairs. */
  type Kwargs<A> = seq<(string, A)>

  /** Names strictly increase: what `sorted` yields for names that are distinct,
      as the names of a `**kwargs` dict always are. */
  predicate SortedByName<A>(kw: Kwargs<A>) {
    forall i, j :: 0 <= i < j < |kw| ==> StrLess(kw[i].0, kw[j].0)
  }

  predicate DistinctNames<A>(kw: Kwargs<A>) {
    forall i, j :: 0 <= i < j < |kw| ==> kw[i].0 != kw[j].0
  }

  function Insert<A>(x: (string, A), kw: Kwargs<A>): (r: Kwargs<A>)
    requires SortedByName(kw)
    requires forall i :: 0 <= i < |kw| ==> kw[i].0 != x.0
    ensures multiset(r) == multiset(kw) + multiset{x}
    ensures SortedByName(r)
    ensures forall p :: p in r ==> p == x || p in kw
    decreases |kw|
  {
    if |kw| == 0 then [x]
    else if StrLess(x.0, kw[0].0) then
      BelowHead(x, kw);
      [x] + kw
    else
      var rest := Insert(x, kw[1..]);
      assert kw == [kw[0]] + kw[1..];
      AboveHead(x, kw, rest);
      [kw[0]] + rest
  }

  /** `sorted(kwargs.items())` for distinct names. */
  function SortByName<A>(kw: Kwargs<A>): (r: Kwargs<A>)
    requires DistinctNames(kw)
    ensures multiset(r) == multiset(kw)
    ensures SortedByName(r)
    decreases |kw|
  {
    if |kw| == 0 then []
    else
      var rest := SortByName(kw[1..]);
      HeadNotInTail(kw, rest);
      assert kw == [kw[0]] + kw[1..];
      Insert(kw[0], rest)
  }

  /** Whatever sorts below the head of a sorted list sorts below all of it. */
  lemma BelowHead<A>(x: (string, A), kw: Kwargs<A>)
    requires SortedByName(kw) && |kw| > 0 && StrLess(x.0, kw[0].0)
    ensures forall i :: 0 <= i < |kw| ==> StrLess(x.0, kw[i].0)
  {
    forall i | 0 < i < |kw| ensures StrLess(x.0, kw[i].0) {
      StrLessTransitive(x.0, kw[0].0, kw[i].0);
    }
  }

  /** Inserting `x` after the head of a sorted list keeps everything above the head. */
  lemma AboveHead<A>(x: (string, A), kw: Kwargs<A>, rest: Kwargs<A>)
    requires SortedByName(kw) && |kw| > 0
    requires x.0 != kw[0].0 && !StrLess(x.0, kw[0].0)
    requires forall p :: p in rest ==> p == x || p in kw[1..]
    ensures forall p :: p in rest ==> StrLess(kw[0].0, p.0)
  {
    StrLessTotal(x.0, kw[0].0);
    forall p | p in rest ensures StrLess(kw[0].0, p.0) {
      if p != x {
        var j :| 0 <= j < |kw[1..]| && kw[1..][j] == p;
        assert kw[j + 1] == p;
      }
    }
  }

  /** With distinct names, the head's name occurs nowhere in a permutation of the tail. */
  lemma HeadNotInTail<A>(kw: Kwargs<A>, rest: Kwargs<A>)
    requires DistinctNames(kw) && |kw| > 0
    requires multiset(rest) == multiset(kw[1..])
    ensures forall i :: 0 <= i < |rest| ==> rest[i].0 != kw[0].0
  {
    forall i | 0 <= i < |rest| ensures rest[i].0 != kw[0].0 {
      assert rest[i] in multiset(kw[1..]);
      var j :| 0 <= j < |kw[1..]| && kw[1..][j] == rest[i];
      assert kw[j + 1] == rest[i];
    }
  }

  /** Two name-sorted lists holding the same items are the same list. */
  lemma {:induction false} SortedUnique<A>(a: Kwargs<A>, b: Kwargs<A>)
    requires SortedByName(a) && SortedByName(b)
    requires multiset(a) == multiset(b)
    ensures a == b
    decreases |a|
  {
    if |a| == 0 {
      assert |b| == |multiset(b)|;
    } else {
      SortedHeadsEqual(a, b);
      MultisetTail(a);
      MultisetTail(b);
      SortedUnique(a[1..], b[1..]);
      assert a == [a[0]] + a[1..] && b == [b[0]] + b[1..];
    }
  }

  /** Two non-empty name-sorted lists with the same items start alike. */
  lemma SortedHeadsEqual<A>(a: Kwargs<A>, b: Kwargs<A>)
    requires SortedByName(a) && SortedByName(b)
    requires multiset(a) == multiset(b)
    requires |a| > 0
    ensures |b| > 0 && a[0] == b[0]
  {
    assert |b| == |multiset(b)| == |multiset(a)| == |a|;
    assert a[0] in multiset(b) && b[0] in multiset(a);
    var j :| 0 <= j < |b| && b[j] == a[0];
    var i :| 0 <= i < |a| && a[i] == b[0];
    if j > 0 {
      // b[0] < b[j] = a[0] <= a[i] = b[0]
      if i > 0 {
        StrLessTransitive(b[0].0, a[0].0, a[i].0);
      }
      StrLessIrreflexive(b[0].0);
    }
  }

  lemma MultisetTail<A>(a: Kwargs<A>)
    requires |a| > 0
    ensures multiset(a[1..]) == multiset(a) - multiset{a[0]}
  {
    assert a == [a[0]] + a[1..];
  }

  /** The key of a call `f(*args, **kwargs)`. */
  datatype Key<A> = Key(args: seq<A>, kwargs: Kwargs<A>)

  function MakeKey<A>(args: seq<A>, kwargs: Kwargs<A>): (k: Key<A>)
    requires DistinctNames(kwargs)
    ensures k.args == args && multiset(k.kwargs) == multiset(kwargs)
  {
    Key(args, SortByName(kwargs))
  }

  /** The order keyword arguments are passed in does not change the key, so it
      cannot turn a hit into a miss. */
  lemma KeyIgnoresKwargOrder<A>(args: seq<A>, kw1: Kwargs<A>, kw2: Kwargs<A>)
    requires DistinctNames(kw1) && DistinctNames(kw2)
    requires multiset(kw1) == multiset(kw2)
    ensures MakeKey(args, kw1) == MakeKey(args, kw2)
  {
    SortedUnique(SortByName(kw1), SortByName(kw2));
  }

  // ---------------------------------------------------------------------------
  // Lookup and sweep on one function's dict

  /** The outcome of one call of the wrapper: the value returned, the dict
      afterwards, and whether the decorated function was called. */
  datatype Call<K, V> = Call(value: V, store: Store<K, V>, called: bool)

  /** One call of the wrapper `func` built by `MWT.__call__` (main.py:164-175).
      `computed` is what `f(*args, **kwargs)` returns if it is called. An entry is
      served while its age is at most `timeout`; otherwise `f` is called once
      and its result stored with time `now`. */
  function Lookup<K, V>(store: Store<K, V>, key: K, now: real, timeout: real, computed: V): (r: Call<K, V>)
    ensures r.called <==> key !in store || now - store[key].time > timeout
    ensures !r.called ==> r.value == store[key].value && r.store == store
    ensures r.called ==> r.value == computed && r.store == store[key := Stamped(computed, now)]
  {
    if key in store && !(now - store[key].time > timeout) then Call(store[key].value, store, false)
    else Call(computed, store[key := Stamped(computed, now)], true)
  }

  /** The sweep `collect` applies to one dict (main.py:154-157): an entry stays
      only while strictly younger than the timeout. */
  function Collect<K, V>(store: Store<K, V>, now: real, timeout: real): (r: Store<K, V>)
    ensures r.Keys <= store.Keys
    ensures forall k :: k in store ==> (k in r <==> now - store[k].time < timeout)
    ensures forall k :: k in r ==> r[k] == store[k]
  {
    map k | k in store && now - store[k].time < timeout :: store[k]
  }

  /** A freshly computed result stays served, unchanged and without calling `f`
      again, for `timeout` after it was computed. */
  lemma MemoisedWithinTimeout<K, V>(store: Store<K, V>, key: K, t: real, later: real, timeout: real, v: V, w: V)
    requires t <= later <= t + timeout
    ensures var first := Lookup(store, key, t, timeout, v);
      var second := Lookup(first.store, key, later, timeout, w);
      first.called ==> !second.called && second.value == v && second.store == first.store
  {
  }

  /** Sweeping never changes what a lookup returns, except for an entry aged
      exactly `timeout`: lookup still serves it but `collect` has dropped it,
      so after the sweep `f` is called again. */
  lemma CollectAgreesWithLookup<K, V>(store: Store<K, V>, key: K, now: real, timeout: real, v: V)
    ensures var before := Lookup(store, key, now, timeout, v);
      var after := Lookup(Collect(store, now, timeout), key, now, timeout, v);
      && (key in store && now - store[key].time == timeout ==> !before.called && after.called)
      && (!(key in store && now - store[key].time == timeout) ==>
            before.called == after.called && before.value == after.value)
  {
  }

  /** Sweeping twice at the same time removes nothing more. */
  lemma CollectIdempotent<K, V>(store: Store<K, V>, now: real, timeout: real)
    ensures Collect(Collect(store, now, timeout), now, timeout) == Collect(store, now, timeout)
  {
  }

  // ---------------------------------------------------------------------------
  // The class-wide tables and the identity of the dicts

  /** A decorated function, by identity. */
  type FuncId = nat

  /** Identity of a dict object. */
  type DictId = nat

  /** The class attributes `_caches` (function to dict object) and `_timeouts`,
      over the dict objects of the process. */
  datatype Registry<K, V> = Registry(dicts: seq<Store<K, V>>, caches: map<FuncId, DictId>, timeouts: map<FuncId, real>)

  /** A wrapper returned by `MWT(timeout)(f)`: it reads `self.cache`, the dict
      object created when `f` was decorated, and `self.timeout`. */
  datatype Wrapper = Wrapper(f: FuncId, cache: DictId, timeout: real)

  ghost predicate WellFormed<K, V>(reg: Registry<K, V>) {
    && reg.caches.Keys == reg.timeouts.Keys
    && forall f :: f in reg.caches ==> reg.caches[f] < |reg.dicts|
  }

  /** `MWT(timeout)(f)` (main.py:149-162): a new empty dict, recorded for `f` in
      both class tables and in the wrapper. */
  function Decorate<K, V>(reg: Registry<K, V>, f: FuncId, timeout: real): (r: (Registry<K, V>, Wrapper))
    requires WellFormed(reg)
    ensures WellFormed(r.0)
    ensures r.1 == Wrapper(f, |reg.dicts|, timeout) && f in r.0.caches && r.0.caches[f] == r.1.cache
    ensures r.0.dicts == reg.dicts + [map[]]
    ensures r.0.caches == reg.caches[f := |reg.dicts|] && r.0.timeouts == reg.timeouts[f := timeout]
  {
    var d := |reg.dicts|;
    (Registry(reg.dicts + [map[]], reg.caches[f := d], reg.timeouts[f := timeout]), Wrapper(f, d, timeout))
  }

  /** A wrapper `Decorate` returns owns its dict and its timeout: exactly what
      `CollectInPlaceReachesWrapper` asks of the wrapper it follows. */
  lemma DecoratedWrapperOwnsDict<K, V>(reg: Registry<K, V>, f: FuncId, timeout: real)
    requires WellFormed(reg)
    ensures var (r, w) := Decorate(reg, f, timeout);
      && w.f in r.caches && r.caches[w.f] == w.cache && r.timeouts[w.f] == w.timeout
      && (forall g :: g in r.caches && g != w.f ==> r.caches[g] != w.cache)
  {
  }

  /** A call of the wrapper: a lookup in the wrapper's own dict object. */
  function CallWrapped<K, V>(reg: Registry<K, V>, w: Wrapper, key: K, now: real, computed: V): (r: (Registry<K, V>, V))
    requires w.cache < |reg.dicts|
    ensures |r.0.dicts| == |reg.dicts| && r.0.caches == reg.caches && r.0.timeouts == reg.timeouts
    ensures var c := Lookup(reg.dicts[w.cache], key, now, w.timeout, computed);
      r.0.dicts[w.cache] == c.store && r.1 == c.value
    ensures forall j :: 0 <= j < |reg.dicts| && j != w.cache ==> r.0.dicts[j] == reg.dicts[j]
  {
    var c := Lookup(reg.dicts[w.cache], key, now, w.timeout, computed);
    (reg.(dicts := reg.dicts[w.cache := c.store]), c.value)
  }

  /** `collect` as written (main.py:152-158): for each function, in iteration
      order, the kept entries go into a NEW dict object which replaces the
      function's entry in `_caches`; the old dict object is left as it was.
      `funcs` is the order `for func in self._caches` visits, each registered
      function once; every result here holds for any sequence of registered
      functions, that order included. */
  function CollectAsWritten<K, V>(reg: Registry<K, V>, funcs: seq<FuncId>, now: real): (r: Registry<K, V>)
    requires WellFormed(reg)
    requires forall i :: 0 <= i < |funcs| ==> funcs[i] in reg.caches
    ensures WellFormed(r)
    ensures r.caches.Keys == reg.caches.Keys && r.timeouts == reg.timeouts
    ensures |r.dicts| == |reg.dicts| + |funcs|
    ensures r.dicts[..|reg.dicts|] == reg.dicts
    decreases |funcs|
  {
    if |funcs| == 0 then reg
    else
      var f := funcs[0];
      var kept := Collect(reg.dicts[reg.caches[f]], now, reg.timeouts[f]);
      var next := Registry(reg.dicts + [kept], reg.caches[f := |reg.dicts|], reg.timeouts);
      var r := CollectAsWritten(next, funcs[1..], now);
      assert r.dicts[..|reg.dicts|] == r.dicts[..|next.dicts|][..|reg.dicts|];
      r
  }

  /** As written, `collect` rebinds `_caches[f]` of every swept function to a
      dict object created by the sweep, holding exactly the entries of its old
      dict younger than `_timeouts[f]`; an unswept function keeps its entry. */
  lemma {:induction false} CollectAsWrittenRebinds<K, V>(reg: Registry<K, V>, funcs: seq<FuncId>, now: real, f: FuncId)
    requires WellFormed(reg)
    requires forall i :: 0 <= i < |funcs| ==> funcs[i] in reg.caches
    requires f in reg.caches
    ensures var r := CollectAsWritten(reg, funcs, now);
      && (f !in funcs ==> r.caches[f] == reg.caches[f])
      && (f in funcs ==>
            && r.caches[f] >= |reg.dicts|
            && r.dicts[r.caches[f]] == Collect(reg.dicts[reg.caches[f]], now, reg.timeouts[f]))
    decreases |funcs|
  {
    if |funcs| > 0 {
      var g := funcs[0];
      var kept := Collect(reg.dicts[reg.caches[g]], now, reg.timeouts[g]);
      var next := Registry(reg.dicts + [kept], reg.caches[g := |reg.dicts|], reg.timeouts);
      var r := CollectAsWritten(next, funcs[1..], now);
      CollectAsWrittenRebinds(next, funcs[1..], now, f);
      if g == f {
        if f in funcs[1..] {
          CollectIdempotent(reg.dicts[reg.caches[f]], now, reg.timeouts[f]);
        } else {
          assert r.dicts[|reg.dicts|] == r.dicts[..|next.dicts|][|reg.dicts|];
        }
      } else {
        assert f in funcs ==> f in funcs[1..];
        assert next.dicts[next.caches[f]] == reg.dicts[reg.caches[f]];
      }
    }
  }

  /** `collect` as evidently intended: each function's own dict object is
      swept in place, so its wrapper sees the sweep. `funcs` is the iteration
      order of `_caches`, as for `CollectAsWritten`. */
  function CollectInPlace<K, V>(reg: Registry<K, V>, funcs: seq<FuncId>, now: real): (r: Registry<K, V>)
    requires WellFormed(reg)
    requires forall i :: 0 <= i < |funcs| ==> funcs[i] in reg.caches
    ensures WellFormed(r)
    ensures r.caches == reg.caches && r.timeouts == reg.timeouts
    ensures |r.dicts| == |reg.dicts|
    decreases |funcs|
  {
    if |funcs| == 0 then reg
    else
      var f := funcs[0];
      var d := reg.caches[f];
      var next := reg.(dicts := reg.dicts[d := Collect(reg.dicts[d], now, reg.timeouts[f])]);
      CollectInPlace(next, funcs[1..], now)
  }

  /** As written, `collect` never touches a wrapper's dict: every entry the
      wrapper holds, expired or not, is still there afterwards, and `_caches`
      no longer points at that dict, so later sweeps cannot reach it either. */
  lemma {:induction false} CollectAsWrittenMissesWrapper<K, V>(reg: Registry<K, V>, funcs: seq<FuncId>, now: real, w: Wrapper)
    requires WellFormed(reg)
    requires forall i :: 0 <= i < |funcs| ==> funcs[i] in reg.caches
    requires w.cache < |reg.dicts|
    ensures var r := CollectAsWritten(reg, funcs, now);
      && r.dicts[w.cache] == reg.dicts[w.cache]
      && (forall i :: 0 <= i < |funcs| ==> r.caches[funcs[i]] != w.cache)
    decreases |funcs|
  {
    if |funcs| > 0 {
      var f := funcs[0];
      var kept := Collect(reg.dicts[reg.caches[f]], now, reg.timeouts[f]);
      var next := Registry(reg.dicts + [kept], reg.caches[f := |reg.dicts|], reg.timeouts);
      CollectAsWrittenMissesWrapper(next, funcs[1..], now, w);
      CollectAsWrittenOnlyAppends(next, funcs[1..], now, f);
    }
  }

  /** An entry of `_caches` only ever moves to a dict object the sweep created. */
  lemma {:induction false} CollectAsWrittenOnlyAppends<K, V>(reg: Registry<K, V>, funcs: seq<FuncId>, now: real, f: FuncId)
    requires WellFormed(reg)
    requires forall i :: 0 <= i < |funcs| ==> funcs[i] in reg.caches
    requires f in reg.caches
    ensures var r := CollectAsWritten(reg, funcs, now);
      r.caches[f] == reg.caches[f] || r.caches[f] >= |reg.dicts|
    decreases |funcs|
  {
    if |funcs| > 0 {
      var g := funcs[0];
      var kept := Collect(reg.dicts[reg.caches[g]], now, reg.timeouts[g]);
      var next := Registry(reg.dicts + [kept], reg.caches[g := |reg.dicts|], reg.timeouts);
      CollectAsWrittenOnlyAppends(next, funcs[1..], now, f);
    }
  }

  /** The concrete case: decorate `f` with a 60-second timeout, call it at time
      0, sweep at time 100. The entry is a minute and a half stale, yet it is
      still in the dict the wrapper reads. */
  lemma StaleEntrySurvivesCollect(key: int, v: int)
    ensures var (reg1, w) := Decorate(Registry([], map[], map[]), 0, 60.0);
      var (reg2, _) := CallWrapped(reg1, w, key, 0.0, v);
      var reg3 := CollectAsWritten(reg2, [0], 100.0);
      && key in reg3.dicts[w.cache]
      && 100.0 - reg3.dicts[w.cache][key].time > w.timeout
      && reg3.dicts[reg3.caches[0]] == map[]
  {
    var (reg1, w) := Decorate(Registry([], map[], map[]), 0, 60.0);
    var (reg2, _) := CallWrapped(reg1, w, key, 0.0, v);
    CollectAsWrittenMissesWrapper(reg2, [0], 100.0, w);
  }

  /** Swept in place, the dict a wrapper reads holds exactly the entries that
      are younger than the timeout. */
  lemma {:induction false} CollectInPlaceReachesWrapper<K, V>(reg: Registry<K, V>, funcs: seq<FuncId>, now: real, w: Wrapper)
    requires WellFormed(reg)
    requires forall i :: 0 <= i < |funcs| ==> funcs[i] in reg.caches
    requires w.f in reg.caches && reg.caches[w.f] == w.cache && reg.timeouts[w.f] == w.timeout
    requires forall g :: g in reg.caches && g != w.f ==> reg.caches[g] != w.cache
    requires w.f in funcs
    ensures var r := CollectInPlace(reg, funcs, now);
      forall k :: k in r.dicts[w.cache] <==> k in reg.dicts[w.cache] && now - reg.dicts[w.cache][k].time < w.timeout
    decreases |funcs|
  {
    var f := funcs[0];
    var d := reg.caches[f];
    var next := reg.(dicts := reg.dicts[d := Collect(reg.dicts[d], now, reg.timeouts[f])]);
    if f == w.f {
      if w.f in funcs[1..] {
        CollectInPlaceReachesWrapper(next, funcs[1..], now, w);
        CollectIdempotent(reg.dicts[d], now, w.timeout);
      } else {
        CollectInPlaceElsewhere(next, funcs[1..], now, w.cache);
      }
    } else {
      CollectInPlaceReachesWrapper(next, funcs[1..], now, w);
    }
  }

  /** Sweeping functions whose dicts are not `d` leaves `d` alone. */
  lemma {:induction false} CollectInPlaceElsewhere<K, V>(reg: Registry<K, V>, funcs: seq<FuncId>, now: real, d: DictId)
    requires WellFormed(reg)
    requires forall i :: 0 <= i < |funcs| ==> funcs[i] in reg.caches && reg.caches[funcs[i]] != d
    requires d < |reg.dicts|
    ensures CollectInPlace(reg, funcs, now).dicts[d] == reg.dicts[d]
    decreases |funcs|
  {
    if |funcs| > 0 {
      var f := funcs[0];
      var next := reg.(dicts := reg.dicts[reg.caches[f] := Collect(reg.dicts[reg.caches[f]], now, reg.timeouts[f])]);
      CollectInPlaceElsewhere(next, funcs[1..], now, d);
    }
  }
}

=== FILE: options_keyboard.dfy ===
/** The option keyboard of cal.py (copied at main.py:243-271): one button per
    option carrying `CHOSEN;i`, an optional cancel button carrying `CANCEL;0`,
    and the parser of the data those buttons send back. */
module OptionsKeyboard {
  import opened Common
  import opened Text
  import opened Markup

  function ChosenData(i: int): string {
    "CHOSEN;" + IntToString(i)
  }

  const CancelData := "CANCEL;0"

  /** `create_options_keyboard(options, cancel_msg)`. */
  function CreateOptionsKeyboard(options: seq<string>, cancelMsg: Option<string>): (kb: Keyboard)
    ensures |kb| == |options| + (if cancelMsg.Some? then 1 else 0)
    ensures forall i :: 0 <= i < |options| ==> kb[i] == [Button(options[i], ChosenData(i))]
    ensures cancelMsg.Some? ==> kb[|options|] == [Button(cancelMsg.value, CancelData)]
  {
    var rows := seq(|options|, i requires 0 <= i < |options| => [Button(options[i], ChosenData(i))]);
    if cancelMsg.Some? then rows + [[Button(cancelMsg.value, CancelData)]] else rows
  }

  /** `process_option_selection`: exactly two `;`-fields are required; `CHOSEN`
      parses its index, `CANCEL` yields `(False, 0)`, anything else `(False, None)`
      with an alert. */
  function ProcessOptionSelection(data: string): (r: Result<Response<int>, CallbackError>)
    ensures |Split(data, ';')| != 2 ==> r == Failure(BadFieldCount)
    ensures r.Success? ==> (r.value.selected <==> Split(data, ';')[0] == "CHOSEN")
    ensures r.Success? && r.value.selected ==> r.value.value == ParseInt(Split(data, ';')[1])
    ensures |Split(data, ';')| == 2 && Split(data, ';')[0] == "CHOSEN" ==>
      (r.Failure? <==> ParseInt(Split(data, ';')[1]).None?) && (r.Failure? ==> r.error == BadInteger)
    ensures |Split(data, ';')| == 2 && Split(data, ';')[0] != "CHOSEN" ==> r.Success?
    ensures |Split(data, ';')| == 2 && Split(data, ';')[0] == "CANCEL" ==>
      r == Success(Response(false, Some(0), EditText(None)))
    ensures |Split(data, ';')| == 2 && Split(data, ';')[0] != "CHOSEN" && Split(data, ';')[0] != "CANCEL" ==>
      r == Success(Response(false, None, AnswerQuery(Some(WentWrong))))
  {
    var fields := Split(data, ';');
    if |fields| != 2 then Failure(BadFieldCount)
    else
      var action, index := fields[0], fields[1];
      if action == "CHOSEN" then
        match ParseInt(index)
        case None => Failure(BadInteger)
        case Some(i) => Success(Response(true, Some(i), EditText(None)))
      else if action == "CANCEL" then Success(Response(false, Some(0), EditText(None)))
      else Success(Response(false, None, AnswerQuery(Some(WentWrong))))
  }

  lemma SplitPair(a: string, b: string)
    requires ';' !in a && ';' !in b
    ensures Split(a + ";" + b, ';') == [a, b]
  {
    assert Join([a, b], ';') == a + ";" + b;
    SplitJoin([a, b], ';');
  }

  /** Pressing option button `i` of a keyboard yields `(True, i)`; pressing its
      cancel button yields `(False, 0)`. */
  lemma OptionButtonsRoundTrip(options: seq<string>, cancelMsg: Option<string>)
    ensures var kb := CreateOptionsKeyboard(options, cancelMsg);
      forall i :: 0 <= i < |kb| ==>
        ProcessOptionSelection(kb[i][0].data)
          == if i < |options| then Success(Response(true, Some(i), EditText(None)))
             else Success(Response(false, Some(0), EditText(None)))
  {
    var kb: Keyboard := CreateOptionsKeyboard(options, cancelMsg);
    forall i | 0 <= i < |kb|
      ensures ProcessOptionSelection(kb[i][0].data)
          == if i < |options| then Success(Response(true, Some(i), EditText(None)))
             else Success(Response(false, Some(0), EditText(None)))
    {
      if i < |options| {
        IntToStringAlphabet(i, ';');
        SplitPair("CHOSEN", IntToString(i));
        assert kb[i][0].data == "CHOSEN" + ";" + IntToString(i);
        ParseIntToString(i);
      } else {
        SplitPair("CANCEL", "0");
        assert kb[i][0].data == "CANCEL" + ";" + "0";
      }
    }
  }
}

=== FILE: relay.dfy ===
/** `process_message` of main.py: picks the message to echo, the caption to
    give it, and the kind of reply, in a fixed priority order. The reply itself
    is returned rather than sent. */
module Relay {
  import opened Common

  datatype Voice = Voice(fileId: string, duration: int)
  datatype PhotoSize = PhotoSize(fileId: string)
  datatype Sticker = Sticker(fileId: string)
  datatype Document = Document(fileId: string, fileName: Option<string>)
  datatype Audio = Audio(fileId: string, duration: int, performer: Option<string>, title: Option<string>)
  datatype Video = Video(fileId: string, duration: int)
  datatype Contact = Contact(phoneNumber: string, firstName: string, lastName: Option<string>)
  datatype Location = Location(longitude: real, latitude: real)
  datatype Venue = Venue(location: Location, title: string, address: string, foursquareId: Option<string>)
  datatype VideoNote = VideoNote(fileId: string, length: int, duration: int)
  datatype Game = Game(title: string)

  /** The attributes of a `telegram.Message` that `process_message` reads.
      `textHtml` and `captionHtml` are the library's HTML renderings of the
      text and caption with their entities. */
  datatype Message = Message(
    text: Option<string>, textHtml: string,
    caption: Option<string>, captionHtml: string,
    voice: Option<Voice>, photo: seq<PhotoSize>, sticker: Option<Sticker>,
    document: Option<Document>, audio: Option<Audio>, video: Option<Video>,
    contact: Option<Contact>, venue: Option<Venue>, location: Option<Location>,
    videoNote: Option<VideoNote>, game: Option<Game>,
    replyTo: Option<Message>)

  datatype Update = Update(message: Option<Message>, editedMessage: Option<Message>)

  const GameNotice := "Sorry, telegram doesn't allow to echo this message"
  const UnsupportedNotice := "Sorry, this kind of media is not supported yet"

  /** The `reply_*` call made on the chosen message, with its arguments.
      Captioned kinds use HTML parse mode; `Notice` is a quoted plain reply. */
  datatype Reply =
    | ReplyText(html: string)
    | ReplyVoice(voice: string, duration: int, caption: Option<string>)
    | ReplyPhoto(photo: string, caption: Option<string>)
    | ReplySticker(sticker: string)
    | ReplyDocument(document: string, filename: Option<string>, caption: Option<string>)
    | ReplyAudio(audio: string, duration: int, performer: Option<string>, title: Option<string>, caption: Option<string>)
    | ReplyVideo(video: string, duration: int, caption: Option<string>)
    | ReplyContact(phoneNumber: string, firstName: string, lastName: Option<string>)
    | ReplyVenue(longitude: real, latitude: real, venueTitle: string, address: string, foursquareId: Option<string>)
    | ReplyLocation(latitude: real, longitude: real)
    | ReplyVideoNote(videoNote: string, length: int, duration: int)
    | Notice(text: string)

  /** The message replied to and the reply made. */
  datatype Relayed = Relayed(source: Message, reply: Reply)

  /** The chosen message is `None` (no `message`, or no `reply_to_message`),
      so reading its attributes raises `AttributeError`. */
  datatype RelayError = NoSourceMessage

  /** Python truthiness of an optional string: present and non-empty. */
  predicate Filled(s: Option<string>) {
    s.Some? && |s.value| > 0
  }

  /** The kinds of content, in the order `process_message` tests them. */
  datatype Kind = TextKind | VoiceKind | PhotoKind | StickerKind | DocumentKind | AudioKind
                | VideoKind | ContactKind | VenueKind | LocationKind | VideoNoteKind | GameKind

  const Priority: seq<Kind> := [TextKind, VoiceKind, PhotoKind, StickerKind, DocumentKind, AudioKind,
                                VideoKind, ContactKind, VenueKind, LocationKind, VideoNoteKind, GameKind]

  /** The position of a kind in `Priority`. */
  function Rank(k: Kind): (i: nat)
    ensures i < |Priority| && Priority[i] == k
  {
    match k
    case TextKind => 0
    case VoiceKind => 1
    case PhotoKind => 2
    case StickerKind => 3
    case DocumentKind => 4
    case AudioKind => 5
    case VideoKind => 6
    case ContactKind => 7
    case VenueKind => 8
    case LocationKind => 9
    case VideoNoteKind => 10
    case GameKind => 11
  }

  /** Whether a message carries content of a kind, by Python truthiness. */
  predicate Has(m: Message, k: Kind) {
    match k
    case TextKind => Filled(m.text)
    case VoiceKind => m.voice.Some?
    case PhotoKind => |m.photo| > 0
    case StickerKind => m.sticker.Some?
    case DocumentKind => m.document.Some?
    case AudioKind => m.audio.Some?
    case VideoKind => m.video.Some?
    case ContactKind => m.contact.Some?
    case VenueKind => m.venue.Some?
    case LocationKind => m.location.Some?
    case VideoNoteKind => m.videoNote.Some?
    case GameKind => m.game.Some?
  }

  /** The kind a reply answers, `None` for the unsupported notice. */
  function KindOf(r: Reply): Option<Kind> {
    match r
    case ReplyText(_) => Some(TextKind)
    case ReplyVoice(_, _, _) => Some(VoiceKind)
    case ReplyPhoto(_, _) => Some(PhotoKind)
    case ReplySticker(_) => Some(StickerKind)
    case ReplyDocument(_, _, _) => Some(DocumentKind)
    case ReplyAudio(_, _, _, _, _) => Some(AudioKind)
    case ReplyVideo(_, _, _) => Some(VideoKind)
    case ReplyContact(_, _, _) => Some(ContactKind)
    case ReplyVenue(_, _, _, _, _) => Some(VenueKind)
    case ReplyLocation(_, _) => Some(LocationKind)
    case ReplyVideoNote(_, _, _) => Some(VideoNoteKind)
    case Notice(t) => if t == GameNotice then Some(GameKind) else None
  }

  /** The caption a captioned reply carries, `None` for the other kinds. */
  function CaptionOf(r: Reply): Option<string> {
    match r
    case ReplyVoice(_, _, c) => c
    case ReplyPhoto(_, c) => c
    case ReplyDocument(_, _, c) => c
    case ReplyAudio(_, _, _, _, c) => c
    case ReplyVideo(_, _, c) => c
    case _ => None
  }

  /** The message to echo (main.py:50-57): an edit wins; otherwise the replied-to
      message when the caption is being removed or replaced; otherwise the message. */
  function Source(u: Update, removeCaption: bool, customCaption: Option<string>): Option<Message> {
    if u.editedMessage.Some? then u.editedMessage
    else if removeCaption || customCaption.Some? then
      (if u.message.Some? then u.message.value.replyTo else None)
    else u.message
  }

  /** The caption for captioned kinds (main.py:59-62). */
  function Caption(m: Message, removeCaption: bool, customCaption: Option<string>): Option<string> {
    if customCaption.None? then
      (if Filled(m.caption) && !removeCaption then Some(m.captionHtml) else None)
    else customCaption
  }

  /** The reply made to `m`: the first kind present in priority order decides. */
  function ReplyFor(m: Message, caption: Option<string>): Reply {
    if Filled(m.text) then ReplyText(m.textHtml)
    else if m.voice.Some? then ReplyVoice(m.voice.value.fileId, m.voice.value.duration, caption)
    else if |m.photo| > 0 then ReplyPhoto(m.photo[|m.photo| - 1].fileId, caption)
    else if m.sticker.Some? then ReplySticker(m.sticker.value.fileId)
    else if m.document.Some? then ReplyDocument(m.document.value.fileId, m.document.value.fileName, caption)
    else if m.audio.Some? then
      var a := m.audio.value;
      ReplyAudio(a.fileId, a.duration, a.performer, a.title, caption)
    else if m.video.Some? then ReplyVideo(m.video.value.fileId, m.video.value.duration, caption)
    else if m.contact.Some? then
      var c := m.contact.value;
      ReplyContact(c.phoneNumber, c.firstName, c.lastName)
    else if m.venue.Some? then
      var v := m.venue.value;
      ReplyVenue(v.location.longitude, v.location.latitude, v.title, v.address, v.foursquareId)
    else if m.location.Some? then ReplyLocation(m.location.value.latitude, m.location.value.longitude)
    else if m.videoNote.Some? then
      var n := m.videoNote.value;
      ReplyVideoNote(n.fileId, n.length, n.duration)
    else if m.game.Some? then Notice(GameNotice)
    else Notice(UnsupportedNotice)
  }

  /** `process_message(update, context, remove_caption, custom_caption)`. */
  function ProcessMessage(u: Update, removeCaption: bool, customCaption: Option<string>): (r: Result<Relayed, RelayError>)
    ensures r.Failure? <==> Source(u, removeCaption, customCaption).None?
    ensures r.Success? ==> r.value.source == Source(u, removeCaption, customCaption).value
  {
    match Source(u, removeCaption, customCaption)
    case None => Failure(NoSourceMessage)
    case Some(m) => Success(Relayed(m, ReplyFor(m, Caption(m, removeCaption, customCaption))))
  }

  /** The reply answers the first kind in `Priority` that the message has, and
      every earlier kind is absent; with none present it is the unsupported notice. */
  lemma ReplyFollowsPriority(m: Message, caption: Option<string>)
    ensures var r := ReplyFor(m, caption);
      && (KindOf(r).Some? ==>
            && Has(m, KindOf(r).value)
            && forall j :: 0 <= j < Rank(KindOf(r).value) ==> !Has(m, Priority[j]))
      && (KindOf(r).None? <==> forall k: Kind :: !Has(m, k))
  {
  }

  /** Which message is echoed: an edited message always; otherwise the
      replied-to message exactly when the caption is removed or replaced. */
  lemma SourceChoice(u: Update, removeCaption: bool, customCaption: Option<string>)
    ensures u.editedMessage.Some? ==> Source(u, removeCaption, customCaption) == u.editedMessage
    ensures u.editedMessage.None? && u.message.Some? ==>
      Source(u, removeCaption, customCaption)
        == if removeCaption || customCaption.Some? then u.message.value.replyTo else u.message
  {
  }

  /** The kinds whose reply passes a caption: voice, photo, document, audio, video. */
  predicate Captioned(k: Kind) {
    k == VoiceKind || k == PhotoKind || k == DocumentKind || k == AudioKind || k == VideoKind
  }

  /** The caption a relayed captioned reply carries: a custom caption always
      wins; without one the original caption survives only when it is
      non-empty and not being removed. Text, sticker and the other kinds carry none. */
  lemma CaptionChoice(u: Update, removeCaption: bool, customCaption: Option<string>)
    ensures var r := ProcessMessage(u, removeCaption, customCaption);
      r.Success? && KindOf(r.value.reply).Some? && Captioned(KindOf(r.value.reply).value) ==>
        CaptionOf(r.value.reply)
          == if customCaption.Some? then customCaption
             else if Filled(r.value.source.caption) && !removeCaption then Some(r.value.source.captionHtml)
             else None
    ensures var r := ProcessMessage(u, removeCaption, customCaption);
      r.Success? && !(KindOf(r.value.reply).Some? && Captioned(KindOf(r.value.reply).value)) ==>
        CaptionOf(r.value.reply) == None
  {
  }

  /** A photo is relayed by its last (largest) size. */
  lemma PhotoUsesLastSize(m: Message, caption: Option<string>)
    requires !Filled(m.text) && m.voice.None? && |m.photo| > 0
    ensures ReplyFor(m, caption) == ReplyPhoto(m.photo[|m.photo| - 1].fileId, caption)
  {
  }
}

=== FILE: text.dfy ===
/** The string helpers the bot's callback protocol relies on: Python's
    `str.split(sep)` and `sep.join(fields)` for a one-character separator, and
    `str(n)` / `int(s)` for decimal integers. */
module Text {
  import opened Common

  /** Python's `s.split(sep)`: the pieces between consecutive separators,
      always at least one (`"".split(";") == [""]`). */
  function Split(s: string, sep: char): (r: seq<string>)
    ensures |r| >= 1
    ensures forall i :: 0 <= i < |r| ==> sep !in r[i]
    decreases |s|
  {
    if |s| == 0 then [""]
    else
      var rest := Split(s[1..], sep);
      if s[0] == sep then [""] + rest
      else [[s[0]] + rest[0]] + rest[1..]
  }

  /** Python's `sep.join(fields)`. */
  function Join(fields: seq<string>, sep: char): string
    decreases |fields|
  {
    if |fields| == 0 then ""
    else if |fields| == 1 then fields[0]
    else fields[0] + [sep] + Join(fields[1..], sep)
  }

  /** A separator-free prefix glues onto the first piece of what follows it. */
  lemma {:induction false} SplitGluesPrefix(f: string, tail: string, sep: char)
    requires sep !in f
    ensures Split(f + tail, sep) == [f + Split(tail, sep)[0]] + Split(tail, sep)[1..]
    decreases |f|
  {
    if |f| == 0 {
      assert f + tail == tail;
      var r := Split(tail, sep);
      assert f + r[0] == r[0];
      assert [r[0]] + r[1..] == r;
    } else {
      assert (f + tail)[1..] == f[1..] + tail;
      assert (f + tail)[0] == f[0];
      SplitGluesPrefix(f[1..], tail, sep);
      assert [f[0]] + (f[1..] + Split(tail, sep)[0]) == f + Split(tail, sep)[0];
    }
  }

  /** Splitting a join gives the fields back when no field contains the separator. */
  lemma {:induction false} SplitJoin(fields: seq<string>, sep: char)
    requires |fields| >= 1
    requires forall i :: 0 <= i < |fields| ==> sep !in fields[i]
    ensures Split(Join(fields, sep), sep) == fields
    decreases |fields|
  {
    if |fields| == 1 {
      SplitGluesPrefix(fields[0], "", sep);
      assert fields[0] + "" == fields[0];
    } else {
      var rest := Join(fields[1..], sep);
      SplitJoin(fields[1..], sep);
      assert Join(fields, sep) == fields[0] + ([sep] + rest);
      SplitGluesPrefix(fields[0], [sep] + rest, sep);
      assert ([sep] + rest)[1..] == rest;
      assert Split([sep] + rest, sep) == [""] + fields[1..];
      assert fields[0] + "" == fields[0];
      assert [fields[0]] + fields[1..] == fields;
    }
  }

  /** Joining the pieces of a split gives the string back: no input is lost by `Split`. */
  lemma {:induction false} JoinSplit(s: string, sep: char)
    ensures Join(Split(s, sep), sep) == s
    decreases |s|
  {
    if |s| > 0 {
      var rest := Split(s[1..], sep);
      JoinSplit(s[1..], sep);
      if s[0] == sep {
        assert Join([""] + rest, sep) == "" + [sep] + Join(rest, sep);
        assert s == [s[0]] + s[1..];
      } else {
        var r := [[s[0]] + rest[0]] + rest[1..];
        assert r[1..] == rest[1..];
        if |rest| == 1 {
          assert Join(r, sep) == [s[0]] + rest[0];
        } else {
          assert Join(rest, sep) == rest[0] + [sep] + Join(rest[1..], sep);
          assert Join(r, sep) == [s[0]] + rest[0] + [sep] + Join(rest[1..], sep);
        }
        assert s == [s[0]] + s[1..];
      }
    }
  }

  predicate IsDigit(c: char) {
    '0' <= c <= '9'
  }

  function DigitChar(d: nat): (c: char)
    requires d < 10
    ensures IsDigit(c)
  {
    (('0' as int) + d) as char
  }

  predicate AllDigits(s: string) {
    forall i :: 0 <= i < |s| ==> IsDigit(s[i])
  }

  /** Python's `str(n)` for `n >= 0`: decimal digits, most significant first. */
  function NatToString(n: nat): string
    decreases n
  {
    if n < 10 then [DigitChar(n)] else NatToString(n / 10) + [DigitChar(n % 10)]
  }

  /** Python's `str(i)` for an `int`. */
  function IntToString(i: int): string {
    if i < 0 then "-" + NatToString(-i) else NatToString(i)
  }

  /** The number a string of decimal digits denotes (leading zeros allowed). */
  function DigitsValue(s: string): nat
    requires AllDigits(s)
    decreases |s|
  {
    if |s| == 0 then 0
    else DigitsValue(s[..|s| - 1]) * 10 + (s[|s| - 1] as int - '0' as int)
  }

  /** Python's `int(s)` for decimal text: an optional sign and one or more
      digits; anything else raises `ValueError`, here `None`. */
  function ParseInt(s: string): Option<int> {
    if |s| > 0 && (s[0] == '-' || s[0] == '+') then
      var digits := s[1..];
      if |digits| > 0 && AllDigits(digits) then
        var v: int := DigitsValue(digits);
        Some(if s[0] == '-' then -v else v)
      else None
    else if |s| > 0 && AllDigits(s) then Some(DigitsValue(s))
    else None
  }

  lemma {:induction false} NatToStringDigits(n: nat)
    ensures |NatToString(n)| > 0
    ensures AllDigits(NatToString(n))
    ensures DigitsValue(NatToString(n)) == n
    decreases n
  {
    if n >= 10 {
      NatToStringDigits(n / 10);
      var s := NatToString(n);
      assert s[..|s| - 1] == NatToString(n / 10);
    }
  }

  /** `int(str(i)) == i`: the decimal rendering parses back to the same number. */
  lemma ParseIntToString(i: int)
    ensures ParseInt(IntToString(i)) == Some(i)
  {
    if i < 0 {
      var digits := NatToString(-i);
      NatToStringDigits(-i);
      var s := IntToString(i);
      assert s == "-" + digits;
      assert s[0] == '-' && s[1..] == digits;
    } else {
      var digits := NatToString(i);
      NatToStringDigits(i);
      assert IntToString(i) == digits;
      assert digits[0] != '-' && digits[0] != '+' by {
        assert IsDigit(digits[0]);
      }
    }
  }

  /** Rendering is injective, as a consequence of the round trip. */
  lemma IntToStringInjective(i: int, j: int)
    ensures IntToString(i) == IntToString(j) <==> i == j
  {
    ParseIntToString(i);
    ParseIntToString(j);
  }

  /** A rendered integer never contains a character other than a sign or a digit. */
  lemma IntToStringAlphabet(i: int, c: char)
    requires c != '-' && !IsDigit(c)
    ensures c !in IntToString(i)
  {
    var n: nat := if i < 0 then -i else i;
    NatToStringDigits(n);
    if i < 0 {
      assert IntToString(i) == "-" + NatToString(n);
    }
  }
}
